=== FILE: README.md ===
# A Dafny model of FLEXI's ParaView reader plugin

The model covers the reader class `visu3DReader`. This is the ParaView plugin that lets ParaView open FLEXI state files. The class keeps:

- the list of selected state files, each with its `Time` attribute;
- a catalog of variable names, each enabled or disabled from the GUI;
- the settings that go into the post-processing tool's parameter file.

Its two pipeline phases are:

- **Information request.** Publish the time steps and their range. Ask the solver for its variable-name table, then register every new name with its default status.
- **Data request.** Pick the file whose timestamp is closest to the requested time. Write the parameter file: header lines, then one `VarName` line per enabled variable. Let the solver fill its buffers, then build two mesh blocks, DG and FV, from them. Each block has:
  - points, from flat coordinate triples;
  - cells, from fixed-size groups of node ids;
  - one point-data array per variable, cut from a concatenated values buffer by per-variable component counts.

The model is split into modules that follow these concerns:

- `TimestepIndex`: the closest-timestep search and the published time range.
- `NameTable`: the solver's variable-name table. It is a character buffer of 255-character slots, each slot cut at the first NUL and then at the first space.
- `VarCatalog`: the variable catalog, an ordered list of (name, enabled) entries. Lookups use the first entry with the name. Enabling or disabling an unknown name appends it. Discovery gives `Density` and `ElemData:FV_Elems` the default status enabled, and every other name disabled.
- `Decimal`: decimal rendering of integers, for the `NVisu` line.
- `SettingsFile`: the lines of the parameter file.
- `FieldSplit`: splitting the values buffer into named field arrays. There are two versions: the copy as written, and the split the buffer layout calls for (see Findings).
- `MeshMarshal`: points, cells, and the filling of one mesh block.
- `Visu3DReader`: the reader state, file registration, the two request phases, and the GUI accessors. `GetNumberOfVarArrays` is the catalog length.
- `Wrappers`: `Option`.

Values that the code obtains from its environment are parameters of the model:

- the HDF5 `Time` attribute (`timeAttr`);
- whether `chdir` to the state file's directory succeeds (`dirFound`);
- the solver's name table and output buffers (`varnames`, `SolverOutput`);
- whether the host's output object is a multi-block data set (`outputIsMultiBlock`).

Where the code tolerates malformed input silently, the model states what the code does rather than what a validating reader would do:

- The code builds cells from the whole groups of node ids and ignores a remainder of `len % arity` ids; a validating reader would reject such a buffer. `MeshMarshal.CellsCoverWholeGroups` states what the code does.
- The code floors `sizePerVar / c` without a check, so a count that does not divide `sizePerVar` gives an array too small for the values copied into it (lines 421-426). `FieldSplit.FieldInput` is the condition under which the copy fills its arrays exactly, and `FieldSplit.AsWrittenOverrunsArray` shows an input outside it.
- For a component count above 1, the copy does not consume the values buffer from end to end (see Findings). The corrected split does, as `FieldSplit.IntendedTiles` proves.
- A failed downcast to a multi-block data set returns at line 318, before the call that releases the solver's buffers at line 337. `Visu3DReader.RequestData` models this: no release on that path.

## Model

| member | source | states |
|---|---|---|
| TimestepIndex.Abs | posti/visu/paraviewReader/visu3DReader.cxx:199-203 | `fabs`: the result is non-negative and is `x` or `-x` |
| TimestepIndex.FirstClosestUnique | posti/visu/paraviewReader/visu3DReader.cxx:196-210 | the strict `<` comparison means at most one index is the first closest, so the search has a unique answer |
| TimestepIndex.ClosestIndex | posti/visu/paraviewReader/visu3DReader.cxx:196-210 | a reference definition of the search: the lowest index whose distance to the requested time is minimal |
| TimestepIndex.FindClosestTimeStep | posti/visu/paraviewReader/visu3DReader.cxx:196-210 | the loop returns an index of minimal distance, with ties going to the earliest, and agrees with `ClosestIndex` |
| TimestepIndex.TimeRange | posti/visu/paraviewReader/visu3DReader.cxx:113 | the published range is the first and the last registered time, both members of the list |
| TimestepIndex.SortedRangeBounds | posti/visu/paraviewReader/visu3DReader.cxx:113 | for an ascending list, every time step lies inside the published range |
| TimestepIndex.UnsortedRangeReversed | posti/visu/paraviewReader/visu3DReader.cxx:113 | two files registered in reverse time order give a reversed range |
| TimestepIndex.RangeReversedIff | posti/visu/paraviewReader/visu3DReader.cxx:113 | the range is reversed exactly when the first file's time lies after the last file's |
| TimestepIndex.UnsortedRangeExcludes | posti/visu/paraviewReader/visu3DReader.cxx:113 | registering times 1, 3, 2 gives the range (1, 2), which leaves the registered time 3 outside it |
| NameTable.TakeUntil | posti/visu/paraviewReader/visu3DReader.cxx:147-148 | the cut string is a prefix without the stop character, ending at the stop character or at the end of the input |
| NameTable.Slot | posti/visu/paraviewReader/visu3DReader.cxx:144-146 | slot `k` is the 255 characters of the table starting at `k * 255` |
| NameTable.SlotName | posti/visu/paraviewReader/visu3DReader.cxx:145-148 | a decoded name is a prefix of its slot without NUL or space, followed in the slot by a NUL or a space unless it fills the slot |
| NameTable.DecodeNames | posti/visu/paraviewReader/visu3DReader.cxx:144-148 | one name per whole slot (`len / 255`, so a trailing partial slot is ignored), name `k` decoded from slot `k` |
| NameTable.PadSlot | posti/visu/paraviewReader/visu3DReader.cxx:144-148 | the encoding partner of a slot: the name followed by space padding up to 255 characters |
| NameTable.PackSlot | posti/visu/paraviewReader/visu3DReader.cxx:144-146 | in a table packed from storable names, slot `k` is the padded name `k` |
| NameTable.PadSlotName | posti/visu/paraviewReader/visu3DReader.cxx:147-148 | cutting a padded slot at NUL and then at space gives back the name |
| NameTable.DecodePackRoundTrip | posti/visu/paraviewReader/visu3DReader.cxx:144-148 | decoding a table packed from names shorter than a slot, without spaces or NULs, gives back exactly those names |
| VarCatalog.Find | posti/visu/paraviewReader/visu3DReader.cxx:150 | lookup returns the first entry with the name, or none when no entry has it |
| VarCatalog.SetStatus | posti/visu/paraviewReader/visu3DReader.cxx:485-492 | enabling or disabling a known name gives its first entry the new status in place. An unknown name is appended with that status. No other entry, and no entry's name, changes |
| VarCatalog.SetStatusThenRead | posti/visu/paraviewReader/visu3DReader.cxx:485-492 | after setting, the name is present and reads back the status set. Every other name keeps its status and presence |
| VarCatalog.FindAfterSet | posti/visu/paraviewReader/visu3DReader.cxx:485-492 | setting keeps the name's position, or gives it the next position when new, and leaves every other name's position unchanged |
| VarCatalog.Contains | posti/visu/paraviewReader/visu3DReader.cxx:150 | `ArrayExists`: true exactly when some entry carries the name |
| VarCatalog.IsEnabled | posti/visu/paraviewReader/visu3DReader.cxx:256 | `ArrayIsEnabled`: true exactly when the first entry with the name is enabled, so an unknown name reads as disabled |
| VarCatalog.FindEachUnique | posti/visu/paraviewReader/visu3DReader.cxx:150 | in a catalog without duplicates, looking up entry `i`'s name finds `i` |
| VarCatalog.SetStatusUnique | posti/visu/paraviewReader/visu3DReader.cxx:485-492 | setting a status never creates a duplicate name |
| VarCatalog.SetAll | posti/visu/paraviewReader/visu3DReader.cxx:454-461 | enabling or disabling all entries keeps every name and position and gives every entry the same status |
| VarCatalog.SetAllThenRead | posti/visu/paraviewReader/visu3DReader.cxx:454-461 | after enabling or disabling all, exactly the same names are present, and each reads back the common status |
| VarCatalog.DiscoverOne | posti/visu/paraviewReader/visu3DReader.cxx:150-158 | a known name leaves the catalog unchanged. An unknown name is appended, enabled exactly when it is `Density` or `ElemData:FV_Elems` |
| VarCatalog.Discover | posti/visu/paraviewReader/visu3DReader.cxx:144-159 | the discovery loop over the decoded names adds at most one entry per name and removes none. `DiscoverExtends`, `DiscoverContains`, `DiscoverAppendsDefaults`, `DiscoverUnique` and `DiscoverInTableOrder` characterise it |
| VarCatalog.DiscoverExtends | posti/visu/paraviewReader/visu3DReader.cxx:144-159 | discovery only appends: the old catalog is a prefix of the new one |
| VarCatalog.DiscoverPreservesStatus | posti/visu/paraviewReader/visu3DReader.cxx:150-158 | discovery never changes the status of a name already in the catalog |
| VarCatalog.DiscoverContains | posti/visu/paraviewReader/visu3DReader.cxx:144-159 | after discovery every decoded name is in the catalog |
| VarCatalog.DiscoverAppendsDefaults | posti/visu/paraviewReader/visu3DReader.cxx:150-158 | every appended entry is a decoded name that was not known before, carrying its default status |
| VarCatalog.DiscoverInTableOrder | posti/visu/paraviewReader/visu3DReader.cxx:144-159 | new names are appended in the order of their first occurrence in the name table |
| VarCatalog.DiscoverUnique | posti/visu/paraviewReader/visu3DReader.cxx:150-152 | discovery keeps the catalog free of duplicates, even when the table repeats a name |
| VarCatalog.DiscoverListed | posti/visu/paraviewReader/visu3DReader.cxx:150 | discovering names that are all known changes nothing |
| VarCatalog.DiscoverIdempotent | posti/visu/paraviewReader/visu3DReader.cxx:144-159 | a second discovery of the same table changes nothing |
| VarCatalog.DiscoverDefaultsExample | posti/visu/paraviewReader/visu3DReader.cxx:155-157 | discovering `Density`, `Pressure`, `ElemData:FV_Elems` enables the first and the last |
| Decimal.NatToString | posti/visu/paraviewReader/visu3DReader.cxx:278 | `%d` of a natural number: a non-empty run of digits with no leading zero |
| Decimal.IntToString | posti/visu/paraviewReader/visu3DReader.cxx:278 | `%d`: a non-empty string that starts with `-` exactly for negative numbers |
| Decimal.ParseNatToString | posti/visu/paraviewReader/visu3DReader.cxx:278 | reading back the digits of a natural number gives the number |
| Decimal.ParseIntToString | posti/visu/paraviewReader/visu3DReader.cxx:278 | reading back the rendering of any integer gives the integer |
| SettingsFile.Selection | posti/visu/paraviewReader/visu3DReader.cxx:251-257 | one flag per catalog entry, equal to the entry's status when names are unique |
| SettingsFile.EnabledIndices | posti/visu/paraviewReader/visu3DReader.cxx:287-293 | the indices of the set flags, strictly increasing, containing exactly the flagged positions |
| SettingsFile.VarNameLines | posti/visu/paraviewReader/visu3DReader.cxx:287-293 | the loop writing `VarName` lines writes one line per selected position; `VarNameLinesSelected` gives each line's content |
| SettingsFile.VarNameLinesSelected | posti/visu/paraviewReader/visu3DReader.cxx:287-293 | one `VarName` line per enabled entry, in catalog order, carrying that entry's name |
| SettingsFile.HeaderLines | posti/visu/paraviewReader/visu3DReader.cxx:278-284 | the header is `NVisu`, `NodeTypeVisu`, `VisuDimension` (`2` or `3`) and `DGonly` (`T` or `F`), then `MeshFile` only when an override is set |
| SettingsFile.SettingsLines | posti/visu/paraviewReader/visu3DReader.cxx:278-293 | the parameter file is the header followed by exactly one `VarName` line per enabled variable, in catalog order |
| SettingsFile.EnabledNamesMembership | posti/visu/paraviewReader/visu3DReader.cxx:251-257 | a name is written exactly when it is in the catalog and enabled |
| SettingsFile.VarNameValuesConcat | posti/visu/paraviewReader/visu3DReader.cxx:287-293 | reading `VarName` values back distributes over concatenated line lists |
| SettingsFile.NoVarNameLines | posti/visu/paraviewReader/visu3DReader.cxx:278-284 | lines none of which starts with `VarName = ` read back as no names |
| SettingsFile.HeaderHasNoVarName | posti/visu/paraviewReader/visu3DReader.cxx:278-284 | no header line is read back as a `VarName` line |
| SettingsFile.VarNameLinesRead | posti/visu/paraviewReader/visu3DReader.cxx:291 | `VarName = name` lines read back as their names, in order |
| SettingsFile.SettingsReadBack | posti/visu/paraviewReader/visu3DReader.cxx:278-293 | reading the `VarName` values back from the whole file gives exactly the enabled names in catalog order |
| SettingsFile.SettingsExample | posti/visu/paraviewReader/visu3DReader.cxx:278-293 | resolution 5, 3D, with `Density` and `Mach` enabled and `Pressure` disabled, gives four header lines and two `VarName` lines in enable order |
| MeshMarshal.CopyPoints | posti/visu/paraviewReader/visu3DReader.cxx:354-362 | one point per coordinate triple, point `p` being coordinates `3p`, `3p+1`, `3p+2` |
| MeshMarshal.PointsRoundTrip | posti/visu/paraviewReader/visu3DReader.cxx:354-362 | flattening the points gives back the coordinate buffer |
| MeshMarshal.BuildCells | posti/visu/paraviewReader/visu3DReader.cxx:371-403 | one quad (2D) or hexahedron (3D) per whole group of 4 or 8 node ids, cell `k` holding group `k` in order |
| MeshMarshal.CellsCoverWholeGroups | posti/visu/paraviewReader/visu3DReader.cxx:377-393 | the cells hold the node ids in order up to the last whole group, and what is left over is `len % arity` ids |
| MeshMarshal.InsertData | posti/visu/paraviewReader/visu3DReader.cxx:351-439 | the block as written: points and cells as above, and one field per name-table slot named after its slot, split as the copy is written |
| MeshMarshal.InsertDataIntended | posti/visu/paraviewReader/visu3DReader.cxx:351-439 | the same block with the intended field split |
| FieldSplit.TotalComponents | posti/visu/paraviewReader/visu3DReader.cxx:408-411 | the summed component count is at least the number of variables, so the division at line 412 is defined |
| FieldSplit.SizePerVar | posti/visu/paraviewReader/visu3DReader.cxx:412 | the values per component, times the total component count, fit in the values buffer |
| FieldSplit.WindowInBounds | posti/visu/paraviewReader/visu3DReader.cxx:424-428 | variable `i`'s window starts at a non-negative offset, holds at least `sizePerVar` values, and ends at the next variable's offset, inside the buffer |
| FieldSplit.SplitFrom | posti/visu/paraviewReader/visu3DReader.cxx:413-428 | the copy loop with its running `dataPos`: one array per remaining variable. `SplitFromStep` and `SplitFromAt` relate it to the closed-form offsets |
| FieldSplit.SplitFromStep | posti/visu/paraviewReader/visu3DReader.cxx:415-428 | one step of the copy loop: the running position advances by `sizePerVar * c` to the closed-form offset of the next variable |
| FieldSplit.SplitFromAt | posti/visu/paraviewReader/visu3DReader.cxx:413-437 | the loop with a running position produces, for every variable, the array of the closed form with offset `sizePerVar * (sum of earlier counts)` |
| FieldSplit.FieldAtFills | posti/visu/paraviewReader/visu3DReader.cxx:420-427 | when the count divides `sizePerVar`, tuples times components equals the values copied |
| FieldSplit.SplitFields | posti/visu/paraviewReader/visu3DReader.cxx:406-437 | as written: one array per variable, named after it with its component count, reading `sizePerVar` values from its offset, each filled exactly under the input condition |
| FieldSplit.SplitFieldsIntended | posti/visu/paraviewReader/visu3DReader.cxx:419-428 | intended: one array per variable of `sizePerVar` tuples, reading from its offset to the next variable's, each filled exactly |
| FieldSplit.FlattenStep | posti/visu/paraviewReader/visu3DReader.cxx:428 | a window followed by windows tiling the rest tile the whole range |
| FieldSplit.IntendedTiles | posti/visu/paraviewReader/visu3DReader.cxx:424-428 | the intended arrays consume the values buffer from its start, with no gap and no overlap, up to `sizePerVar` times the total count |
| FieldSplit.ScalarSplitsAgree | posti/visu/paraviewReader/visu3DReader.cxx:416-428 | for scalar variables (every count 1), the copy as written and the intended split give the same arrays |
| FieldSplit.AsWrittenDropsValues | posti/visu/paraviewReader/visu3DReader.cxx:421-428 | one 3-component variable over nine values: as written, one tuple holding the first three values, where the layout calls for three tuples holding all nine |
| FieldSplit.AsWrittenOverrunsArray | posti/visu/paraviewReader/visu3DReader.cxx:421-426 | one 3-component variable over six values: the array is sized for no tuple but two values are copied into it |
| Visu3DReader.AddFileName | posti/visu/paraviewReader/visu3DReader.cxx:168-188 | appends the file name and its `Time` attribute, or 0 when there is none, and changes nothing else. Equal list lengths are preserved |
| Visu3DReader.RemoveAllFileNames | posti/visu/paraviewReader/visu3DReader.cxx:190-193 | clears both lists and keeps the catalog and settings |
| Visu3DReader.FileListPairs | posti/visu/paraviewReader/visu3DReader.cxx:168-193 | after clearing and registering files, entry `i` of each list comes from file `i` |
| Visu3DReader.RequestInformation | posti/visu/paraviewReader/visu3DReader.cxx:81-161 | publishes the time steps and their first-to-last range. Fails with 0 and no catalog change when the directory is missing. Otherwise returns 1, and the catalog is the discovery of the decoded names: old entries untouched, every decoded name listed, each appended entry a new decoded name with its default status, and no duplicates |
| Visu3DReader.RequestInformationIdempotent | posti/visu/paraviewReader/visu3DReader.cxx:144-159 | a second information request for the same table leaves the reader unchanged |
| Visu3DReader.RequestData | posti/visu/paraviewReader/visu3DReader.cxx:226-345 | with a requested time, loads a file of closest timestamp. Fails before writing anything when the directory is missing. Otherwise writes the parameter file. Fails, without the release, when the output is not a multi-block set. Otherwise fills the DG and then the FV block with the copy as written, and releases the buffers |
| Visu3DReader.ScalarBlockTiles | posti/visu/paraviewReader/visu3DReader.cxx:329-335 | for scalar variables a block the data request builds carries the intended split and consumes its values buffer with no gap |
| Visu3DReader.GetNumberOfVarArrays | posti/visu/paraviewReader/visu3DReader.cxx:462-465 | the number of catalog positions: every listed name's position lies below it |
| Visu3DReader.GetVarArrayName | posti/visu/paraviewReader/visu3DReader.cxx:467-477 | a name exactly for an index within the catalog, namely that entry's name |
| Visu3DReader.GetVarArrayStatus | posti/visu/paraviewReader/visu3DReader.cxx:478-481 | 1 exactly for a known enabled name, 0 otherwise, including unknown names |
| Visu3DReader.NameThenStatus | posti/visu/paraviewReader/visu3DReader.cxx:467-481 | the status of the name at an index is that entry's status |
| Visu3DReader.SetVarArrayStatus | posti/visu/paraviewReader/visu3DReader.cxx:483-493 | any non-zero status enables the name, zero disables it. The name then reads back that status, and every other name keeps its status. Every existing name keeps its position, and an unknown name is appended at the end. Nothing but the catalog changes |
| Visu3DReader.EnableAllVarArrays | posti/visu/paraviewReader/visu3DReader.cxx:458-461 | same names at the same indices, all enabled. Files, timestamps and settings are unchanged |
| Visu3DReader.DisableAllVarArrays | posti/visu/paraviewReader/visu3DReader.cxx:454-457 | same names at the same indices, and every name reads status 0. Files, timestamps and settings are unchanged |

## Left out

- VTK plumbing is reduced to the `outputIsMultiBlock` flag: piece requests, `SafeDownCast`, the creation of missing blocks (lines 323-327), `FillOutputPortInformation`, smart pointers.
- MPI communicators and barriers are left out; the model is one process.
- HDF5 is left out: the `Time` attribute read in `AddFileName` is the parameter `timeAttr`.
- `strdup`, `dirname` and `chdir` are left out: their outcome is the parameter `dirFound`.
- Several parts of writing the parameter file are left out: `setlocale`, `mkstemps`, `dprintf` and `close`. The file is the list of its lines, without the trailing newline of each. The temporary file name is not modelled. Names are assumed to contain no newline: a name with one would split its `VarName` line in the written file (line 291), so `SettingsFile.SettingsReadBack` holds only for newline-free names.
- The Fortran solver calls are left out: their output is a `SolverOutput` parameter, and the release call is the `buffersReleased` flag. `ParameterFileOverwrite` and the file name passed to the solver are not modelled.
- `Modified()` and `SelectionModifiedCallback` are left out; they only mark the pipeline dirty.
- Logging through `SWRITE` and `std::cout` is left out.
- The constructor and destructor are left out: they create and free the objects above.
- `GetNodeTypeVisuList` is left out: it returns the constant list `VISU`, `GAUSS`, `GAUSS-LOBATTO`, `VISU_INNER`.
- Timestamps are `real`. Double rounding and NaN are not modelled.
- `int` and `unsigned` overflow of `gi`, `dataPos`, `nVar` and `sizePerVar` is not modelled; the model's integers are unbounded.
- NameTable.SlotName: for any slot without a NUL, including the space-padded slots `PadSlot` builds, `strncpy` leaves `tmps` unterminated, and building `std::string` from it reads past the 255-character buffer (lines 146-147 and 431-432). When the slot holds a space, the visible result is still the prefix before the first space, which is what the model returns. Only a slot with neither NUL nor space makes the code's name depend on bytes beyond the slot; there the model takes the whole slot as the name.
- The node ids are copied without checking that they index existing points, as in the code.
- FieldSplit.SplitFields: requires `FieldInput`, which the code never checks. Outside it the code divides by a zero or negative component count, or copies more values than the array holds.
- MeshMarshal.InsertData: requires the same unchecked `FieldInput` condition for the same reason.
- MeshMarshal.CopyPoints: requires `|coords| % 3 == 0`, which the code never checks. With a remainder, lines 356-361 copy `len` values into an array sized for `(len / 3) * 3`, writing past its end. `MeshMarshal.InsertData` and `Visu3DReader.Insertable` carry the same requirement.
- Visu3DReader.RequestData: requires `FieldInput` for both values buffers when the blocks are built. The code does not check it; outside it the copy divides by a zero or negative count or overruns an array.
- TimestepIndex.FindClosestTimeStep: requires a non-empty timestamp list, and so does `Visu3DReader.RequestData` when a time is requested. The code reads `Timesteps[0]` unguarded at line 199, which is out of bounds for an empty list.
- Visu3DReader.RequestInformation: requires a non-empty file list. With an empty list the code reads `FileNames[0]` and `Timesteps[0]` out of bounds (lines 86 and 113).

## Findings

| source | as written | input that shows it | evidently intended | confidence | as-written member | corrected member |
|---|---|---|---|---|---|---|
| posti/visu/paraviewReader/visu3DReader.cxx:421-428 | a variable with `c` components gets `sizePerVar / c` tuples. It is filled from only `sizePerVar` values, while the read position advances by `sizePerVar * c` | one variable `Velocity` with components `[3]` and nine values: one tuple `[0, 1, 2]`, and six values are never read | `sizePerVar` tuples of `c` components, reading the whole window up to the next variable's offset, so that the arrays tile the buffer | medium; not executed. Latent while the solver sends only scalar variables, as the comment at lines 416-418 says | FieldSplit.AsWrittenDropsValues | FieldSplit.IntendedTiles |

=== FILE: decimal.dfy ===
/**
 Decimal rendering of integers as `%d` prints them (an optional minus sign,
 then digits with no leading zero), with the parser that reads it back.
 */
module Decimal {

  predicate IsDigit(ch: char)
  {
    '0' <= ch <= '9'
  }

  function DigitChar(d: nat): (ch: char)
    requires d < 10
    ensures IsDigit(ch)
  {
    (48 + d) as char
  }

  function DigitValue(ch: char): (d: nat)
    requires IsDigit(ch)
    ensures d < 10
  {
    (ch as int) - 48
  }

  /** Digits of `n`, most significant first, no leading zero. */
  function NatToString(n: nat): (s: string)
    ensures |s| >= 1
    ensures forall i :: 0 <= i < |s| ==> IsDigit(s[i])
    ensures |s| > 1 ==> s[0] != '0'
    decreases n
  {
    if n < 10 then [DigitChar(n)] else NatToString(n / 10) + [DigitChar(n % 10)]
  }

  function IntToString(i: int): (s: string)
    ensures |s| >= 1
    ensures i < 0 <==> s[0] == '-'
  {
    if i < 0 then "-" + NatToString(-i) else NatToString(i)
  }

  /** Value of a string of digits. */
  function ParseNat(s: string): nat
    requires forall i :: 0 <= i < |s| ==> IsDigit(s[i])
    decreases |s|
  {
    if |s| == 0 then 0 else ParseNat(s[..|s| - 1]) * 10 + DigitValue(s[|s| - 1])
  }

  /** Value of an optionally negative string of digits. */
  function ParseInt(s: string): (v: int)
    requires |s| >= 1
    requires forall i :: 0 <= i < |s| ==> IsDigit(s[i]) || (i == 0 && s[i] == '-')
  {
    if s[0] == '-' then 0 - ParseNat(s[1..]) else ParseNat(s)
  }

  lemma {:induction false} ParseNatToString(n: nat)
    ensures ParseNat(NatToString(n)) == n
    decreases n
  {
    if n >= 10 {
      var s := NatToString(n);
      ParseNatToString(n / 10);
      assert s[..|s| - 1] == NatToString(n / 10);
    }
  }

  /** Reading back a printed integer gives the integer. */
  lemma ParseIntToString(i: int)
    ensures ParseInt(IntToString(i)) == i
  {
    if i < 0 {
      ParseNatToString(-i);
      assert IntToString(i)[1..] == NatToString(-i);
    } else {
      ParseNatToString(i);
    }
  }
}

=== FILE: field_split.dfy ===
/**
 Splitting the solver's concatenated values buffer into one named array per
 variable. With `n` variables whose component counts sum to `total`, every
 variable is given `spv = |values| / total` values per component, and
 variable `i` starts at `spv` times the counts before it.
 */
module FieldSplit {

  /** A named point-data array of `numTuples` tuples of `numComponents` values each. */
  datatype FieldArray<T> = FieldArray(name: string, numComponents: nat, numTuples: nat, data: seq<T>)

  lemma MulLe(x: int, y: int, a: int)
    requires x <= y && a >= 0
    ensures x * a <= y * a
  {
  }

  /** `components[0] + ... + components[i-1]`. */
  function SumPrefix(components: seq<int>, i: nat): int
    requires i <= |components|
  {
    if i == 0 then 0 else SumPrefix(components, i - 1) + components[i - 1]
  }

  /** The first `n` component counts are all at least 1. */
  predicate PositiveCounts(components: seq<int>, n: nat)
  {
    n <= |components| && forall i :: 0 <= i < n ==> components[i] >= 1
  }

  /** With positive counts the prefix sums grow by at least one per variable. */
  lemma {:induction false} SumPrefixGrows(components: seq<int>, n: nat, i: nat, j: nat)
    requires PositiveCounts(components, n)
    requires i <= j <= n
    ensures SumPrefix(components, i) + (j - i) <= SumPrefix(components, j)
    decreases j - i
  {
    if i < j {
      SumPrefixGrows(components, n, i, j - 1);
    }
  }

  /** Sum of the component counts of the `n` variables, the divisor of the values buffer. */
  function TotalComponents(components: seq<int>, n: nat): (r: int)
    requires PositiveCounts(components, n)
    ensures r >= n
  {
    SumPrefixGrows(components, n, 0, n);
    SumPrefix(components, n)
  }

  /** Values per component: the buffer length divided by the total component count. */
  function SizePerVar(values_len: nat, components: seq<int>, n: nat): (r: nat)
    requires PositiveCounts(components, n)
    requires n > 0
    ensures r * TotalComponents(components, n) <= values_len
  {
    var total := TotalComponents(components, n);
    assert (values_len / total) * total + values_len % total == values_len;
    values_len / total
  }

  /**
   What the copy as written needs from its caller: a component count of at
   least 1 for every variable (each is a divisor), and each count dividing
   the per-component size, so that the copy fills its array exactly.
   */
  predicate FieldInput(values_len: nat, n: nat, components: seq<int>)
  {
    && PositiveCounts(components, n)
    && (n > 0 ==> forall i :: 0 <= i < n ==> SizePerVar(values_len, components, n) % components[i] == 0)
  }

  /** Start of variable `i`'s data: the per-component size times the counts before it. */
  function Offset(spv: nat, components: seq<int>, i: nat): int
    requires i <= |components|
  {
    spv * SumPrefix(components, i)
  }

  /** Variable `i` owns the values from its offset up to the next variable's offset. */
  lemma WindowInBounds(values_len: nat, components: seq<int>, n: nat, i: nat)
    requires PositiveCounts(components, n)
    requires i < n
    ensures var spv := SizePerVar(values_len, components, n);
      && 0 <= Offset(spv, components, i)
      && Offset(spv, components, i) + spv * components[i] == Offset(spv, components, i + 1)
      && Offset(spv, components, i) + spv <= Offset(spv, components, i + 1)
      && Offset(spv, components, i + 1) <= values_len
  {
    var spv := SizePerVar(values_len, components, n);
    SumPrefixGrows(components, n, 0, i);
    SumPrefixGrows(components, n, i + 1, n);
    MulLe(1, components[i], spv);
    MulLe(SumPrefix(components, i + 1), SumPrefix(components, n), spv);
    assert spv * SumPrefix(components, i + 1) == spv * SumPrefix(components, i) + spv * components[i];
  }

  // ---------------------------------------------------------------- as written

  /**
   As written, the array of variable `i`: named `names[i]`, `components[i]`
   components, `spv / components[i]` tuples, holding the `spv` values that
   start at variable `i`'s offset.
   */
  function FieldAt<T>(values: seq<T>, names: seq<string>, components: seq<int>, i: nat): (r: FieldArray<T>)
    requires PositiveCounts(components, |names|)
    requires i < |names|
  {
    var spv := SizePerVar(|values|, components, |names|);
    WindowInBounds(|values|, components, |names|, i);
    var off := Offset(spv, components, i);
    FieldArray(names[i], components[i], spv / components[i], values[off .. off + spv])
  }

  /** As written: the arrays from variable `iVar` on, with a running read position `dataPos`. */
  function SplitFrom<T>(values: seq<T>, names: seq<string>, components: seq<int>, spv: nat, iVar: nat, dataPos: int)
    : (r: seq<FieldArray<T>>)
    requires PositiveCounts(components, |names|)
    requires |names| > 0
    requires spv == SizePerVar(|values|, components, |names|)
    requires iVar <= |names|
    requires dataPos == Offset(spv, components, iVar)
    ensures |r| == |names| - iVar
    decreases |names| - iVar
  {
    if iVar == |names| then []
    else
      WindowInBounds(|values|, components, |names|, iVar);
      var c := components[iVar];
      [FieldArray(names[iVar], c, spv / c, values[dataPos .. dataPos + spv])]
      + SplitFrom(values, names, components, spv, iVar + 1, dataPos + spv * c)
  }

  /** The arrays from `iVar` on: array `iVar`, read at `dataPos`, then those from the next offset on. */
  lemma SplitFromStep<T>(values: seq<T>, names: seq<string>, components: seq<int>, spv: nat, iVar: nat,
                         dataPos: int, next: int)
    requires PositiveCounts(components, |names|)
    requires |names| > 0
    requires spv == SizePerVar(|values|, components, |names|)
    requires iVar < |names|
    requires dataPos == Offset(spv, components, iVar)
    requires next == dataPos + spv * components[iVar]
    ensures next == Offset(spv, components, iVar + 1)
    ensures SplitFrom(values, names, components, spv, iVar, dataPos)
         == [FieldAt(values, names, components, iVar)] + SplitFrom(values, names, components, spv, iVar + 1, next)
  {
    WindowInBounds(|values|, components, |names|, iVar);
  }

  /**
   The running read position agrees with the closed form: among the arrays
   from `iVar` on, the one for variable `i` is `FieldAt(i)`.
   */
  lemma {:induction false} SplitFromAt<T>(values: seq<T>, names: seq<string>, components: seq<int>,
                                          spv: nat, iVar: nat, dataPos: int, i: nat)
    requires PositiveCounts(components, |names|)
    requires |names| > 0
    requires spv == SizePerVar(|values|, components, |names|)
    requires iVar <= i < |names|
    requires dataPos == Offset(spv, components, iVar)
    ensures SplitFrom(values, names, components, spv, iVar, dataPos)[i - iVar] == FieldAt(values, names, components, i)
    decreases i - iVar
  {
    var next := dataPos + spv * components[iVar];
    SplitFromStep(values, names, components, spv, iVar, dataPos, next);
    var head := FieldAt(values, names, components, iVar);
    var tail := SplitFrom(values, names, components, spv, iVar + 1, next);
    var r := SplitFrom(values, names, components, spv, iVar, dataPos);
    assert r == [head] + tail;
    if iVar < i {
      SplitFromAt(values, names, components, spv, iVar + 1, next, i);
      assert r[i - iVar] == tail[i - (iVar + 1)];
    } else {
      assert r[i - iVar] == head;
    }
  }

  lemma DivExact(x: nat, c: int)
    requires c >= 1 && x % c == 0
    ensures (x / c) * c == x
  {
  }

  /** With a count dividing the per-component size, array `i` is filled exactly. */
  lemma FieldAtFills<T>(values: seq<T>, names: seq<string>, components: seq<int>, i: nat)
    requires FieldInput(|values|, |names|, components)
    requires i < |names|
    ensures FieldAt(values, names, components, i).numTuples * FieldAt(values, names, components, i).numComponents
         == |FieldAt(values, names, components, i).data|
  {
    var spv := SizePerVar(|values|, components, |names|);
    WindowInBounds(|values|, components, |names|, i);
    var f := FieldAt(values, names, components, i);
    assert f.numTuples == spv / components[i] && f.numComponents == components[i] && |f.data| == spv;
    assert spv % components[i] == 0;
    DivExact(spv, components[i]);
  }

  /**
   The field arrays as the copy is written: one per variable (none without
   variables), array `i` being `FieldAt(i)`, whose reads stay inside the
   values buffer; when each count divides the per-component size, every
   array is filled exactly.
   */
  function SplitFields<T>(values: seq<T>, names: seq<string>, components: seq<int>): (r: seq<FieldArray<T>>)
    requires FieldInput(|values|, |names|, components)
    ensures |r| == |names|
    ensures forall i :: 0 <= i < |r| ==> r[i] == FieldAt(values, names, components, i)
    ensures forall i :: 0 <= i < |r| ==> r[i].name == names[i] && r[i].numComponents == components[i]
    ensures forall i :: 0 <= i < |r| ==> r[i].numTuples * r[i].numComponents == |r[i].data|
  {
    if |names| == 0 then []
    else
      var spv := SizePerVar(|values|, components, |names|);
      var r := SplitFrom(values, names, components, spv, 0, 0);
      assert Offset(spv, components, 0) == 0;
      forall i | 0 <= i < |r|
        ensures r[i] == FieldAt(values, names, components, i)
        ensures r[i].numTuples * r[i].numComponents == |r[i].data|
      {
        SplitFromAt(values, names, components, spv, 0, 0, i);
        FieldAtFills(values, names, components, i);
      }
      r
  }

  // ---------------------------------------------------------------- intended

  /**
   Intended, the array of variable `i`: `spv` tuples of `components[i]`
   values, read from its offset up to the next variable's offset.
   */
  function FieldAtIntended<T>(values: seq<T>, names: seq<string>, components: seq<int>, i: nat): (r: FieldArray<T>)
    requires PositiveCounts(components, |names|)
    requires i < |names|
  {
    var spv := SizePerVar(|values|, components, |names|);
    WindowInBounds(|values|, components, |names|, i);
    FieldArray(names[i], components[i], spv, values[Offset(spv, components, i) .. Offset(spv, components, i + 1)])
  }

  /**
   The split the buffer layout calls for: one array per variable, array `i`
   being `FieldAtIntended(i)`, and every array filled exactly.
   */
  function SplitFieldsIntended<T>(values: seq<T>, names: seq<string>, components: seq<int>): (r: seq<FieldArray<T>>)
    requires PositiveCounts(components, |names|)
    ensures |r| == |names|
    ensures forall i :: 0 <= i < |r| ==> r[i] == FieldAtIntended(values, names, components, i)
    ensures forall i :: 0 <= i < |r| ==> r[i].numTuples * r[i].numComponents == |r[i].data|
  {
    var n := |names|;
    if n == 0 then []
    else
      var r := seq(n, i requires 0 <= i < n => FieldAtIntended(values, names, components, i));
      assert forall i :: 0 <= i < |r| ==> r[i].numTuples * r[i].numComponents == |r[i].data| by {
        forall i | 0 <= i < |r|
          ensures r[i].numTuples * r[i].numComponents == |r[i].data|
        {
          WindowInBounds(|values|, components, n, i);
        }
      }
      r
  }

  /** The values buffer a list of field arrays consumes, in order. */
  function FlattenData<T>(fields: seq<FieldArray<T>>): seq<T>
  {
    if |fields| == 0 then [] else fields[0].data + FlattenData(fields[1..])
  }

  /** A first array reading `[a, b)` followed by arrays tiling `[b, c)` tile `[a, c)`. */
  lemma FlattenStep<T>(values: seq<T>, fields: seq<FieldArray<T>>, a: int, b: int, c: int)
    requires 0 <= a <= b <= c <= |values|
    requires |fields| > 0 && fields[0].data == values[a .. b]
    requires FlattenData(fields[1..]) == values[b .. c]
    ensures FlattenData(fields) == values[a .. c]
  {
    var x, y := values[a .. b], values[b .. c];
    assert FlattenData(fields) == x + y;
    assert |x + y| == c - a;
    forall i | 0 <= i < c - a
      ensures (x + y)[i] == values[a + i]
    {
      if i < b - a {
        assert (x + y)[i] == x[i];
      } else {
        assert (x + y)[i] == y[i - (b - a)];
      }
    }
  }

  lemma {:induction false} IntendedTilesFrom<T>(values: seq<T>, names: seq<string>, components: seq<int>, iVar: nat)
    requires PositiveCounts(components, |names|)
    requires 0 < |names|
    requires iVar <= |names|
    ensures var spv := SizePerVar(|values|, components, |names|);
      && 0 <= Offset(spv, components, iVar) <= Offset(spv, components, |names|) <= |values|
      && FlattenData(SplitFieldsIntended(values, names, components)[iVar..])
         == values[Offset(spv, components, iVar) .. Offset(spv, components, |names|)]
    decreases |names| - iVar
  {
    var n := |names|;
    var spv := SizePerVar(|values|, components, n);
    var all := SplitFieldsIntended(values, names, components);
    var r := all[iVar..];
    WindowInBounds(|values|, components, n, n - 1);
    if iVar < n {
      WindowInBounds(|values|, components, n, iVar);
      IntendedTilesFrom(values, names, components, iVar + 1);
      assert r[1..] == all[iVar + 1..];
      assert r[0] == all[iVar] == FieldAtIntended(values, names, components, iVar);
      assert r[0].data == values[Offset(spv, components, iVar) .. Offset(spv, components, iVar + 1)];
      FlattenStep(values, r, Offset(spv, components, iVar), Offset(spv, components, iVar + 1), Offset(spv, components, n));
    } else {
      assert r == [];
      SumPrefixGrows(components, n, 0, n);
    }
  }

  /** How much of the values buffer the arrays can hold: `spv` times the total component count. */
  function CoveredLength(values_len: nat, components: seq<int>, n: nat): (r: nat)
    requires PositiveCounts(components, n)
    requires n > 0
    ensures r <= values_len
  {
    SizePerVar(values_len, components, n) * TotalComponents(components, n)
  }

  /**
   The intended split consumes the values buffer from its start, with no gap
   and no overlap, up to `spv` times the total component count.
   */
  lemma IntendedTiles<T>(values: seq<T>, names: seq<string>, components: seq<int>)
    requires PositiveCounts(components, |names|)
    requires |names| > 0
    ensures FlattenData(SplitFieldsIntended(values, names, components))
         == values[.. CoveredLength(|values|, components, |names|)]
  {
    var n := |names|;
    var spv := SizePerVar(|values|, components, n);
    var all := SplitFieldsIntended(values, names, components);
    IntendedTilesFrom(values, names, components, 0);
    assert all[0..] == all;
    assert SumPrefix(components, 0) == 0;
    assert Offset(spv, components, 0) == spv * 0 == 0;
    assert SumPrefix(components, n) == TotalComponents(components, n);
  }

  /**
   For scalar variables (every count 1) the copy as written and the intended
   split agree: each variable gets `spv` one-component tuples.
   */
  lemma ScalarSplitsAgree<T>(values: seq<T>, names: seq<string>, components: seq<int>)
    requires |names| <= |components|
    requires forall i :: 0 <= i < |names| ==> components[i] == 1
    ensures FieldInput(|values|, |names|, components)
    ensures SplitFields(values, names, components) == SplitFieldsIntended(values, names, components)
  {
    var n := |names|;
    assert PositiveCounts(components, n);
    forall i | 0 <= i < n
      ensures FieldAt(values, names, components, i) == FieldAtIntended(values, names, components, i)
    {
      var spv := SizePerVar(|values|, components, n);
      WindowInBounds(|values|, components, n, i);
      assert spv * components[i] == spv;
    }
  }

  /**
   One 3-component variable over nine values: as written it gets one tuple
   and reads only the first three values, where the layout calls for three
   tuples covering all nine.
   */
  lemma AsWrittenDropsValues()
    ensures var values := [0, 1, 2, 3, 4, 5, 6, 7, 8];
      && FieldInput(|values|, 1, [3])
      && SplitFields(values, ["Velocity"], [3])[0].numTuples == 1
      && SplitFields(values, ["Velocity"], [3])[0].data == [0, 1, 2]
      && SplitFieldsIntended(values, ["Velocity"], [3])[0].numTuples == 3
      && SplitFieldsIntended(values, ["Velocity"], [3])[0].data == values
  {
    var values := [0, 1, 2, 3, 4, 5, 6, 7, 8];
    assert TotalComponents([3], 1) == 3;
    assert SizePerVar(|values|, [3], 1) == 3;
    assert Offset(3, [3], 0) == 0;
    assert Offset(3, [3], 1) == 9;
  }

  /**
   One 3-component variable over six values: the as-written copy writes two
   values into an array sized for none, so its input condition fails, while
   the intended split gives two tuples.
   */
  lemma AsWrittenOverrunsArray()
    ensures var values := [0, 1, 2, 3, 4, 5];
      && !FieldInput(|values|, 1, [3])
      && (SizePerVar(|values|, [3], 1) / 3) * 3 < SizePerVar(|values|, [3], 1)
      && SplitFieldsIntended(values, ["Velocity"], [3])[0].numTuples == 2
  {
    assert TotalComponents([3], 1) == 3;
    assert SizePerVar(6, [3], 1) == 2;
  }
}

=== FILE: mesh_marshal.dfy ===
/**
 The buffer-to-mesh marshalling of one mesh block: flat coordinates become
 point triples, node ids are cut into fixed-arity cells, and the concatenated
 values buffer is split into one named field array per variable using the
 per-variable component counts.
 */
module MeshMarshal {
  import NameTable
  import opened FieldSplit

  datatype Point<T> = Point(x: T, y: T, z: T)

  datatype CellKind = Quad | Hexahedron

  /** One cell: its topology and its point ids, in the order the solver gave them. */
  datatype Cell = Cell(kind: CellKind, pointIds: seq<int>)

  datatype MeshBlock<T> = MeshBlock(points: seq<Point<T>>, cells: seq<Cell>, fields: seq<FieldArray<T>>)

  /** Ids per cell: quadrilaterals in 2D mode, hexahedra in 3D mode. */
  function Arity(mode2d: bool): nat
  {
    if mode2d then 4 else 8
  }

  function Kind(mode2d: bool): CellKind
  {
    if mode2d then Quad else Hexahedron
  }

  // ---------------------------------------------------------------- arithmetic

  /** Group `k` of `a` consecutive entries lies inside a buffer of `n` entries. */
  lemma GroupInBounds(k: int, a: int, n: int)
    requires a > 0 && 0 <= k < n / a
    ensures k * a + a <= n
  {
    MulLe(k + 1, n / a, a);
    assert (n / a) * a + n % a == n;
  }

  // ---------------------------------------------------------------- points

  /** `points` are the coordinate triples of `coords`, copied verbatim. */
  ghost predicate PointsOf<T>(coords: seq<T>, points: seq<Point<T>>)
  {
    && |points| == |coords| / 3
    && forall p :: 0 <= p < |points| ==>
         3 * p + 2 < |coords| && points[p] == Point(coords[3 * p], coords[3 * p + 1], coords[3 * p + 2])
  }

  /**
   Copies the coordinates into a point array of `|coords| / 3` tuples. The copy
   writes every coordinate, so it stays inside that array only when the
   buffer holds whole triples.
   */
  method CopyPoints<T>(coords: seq<T>) returns (points: seq<Point<T>>)
    requires |coords| % 3 == 0
    ensures PointsOf(coords, points)
  {
    var capacity := 3 * (|coords| / 3);
    var pdata: seq<T> := [];
    var i := 0;
    while i < |coords|
      invariant 0 <= i <= |coords|
      invariant pdata == coords[..i]
    {
      assert i < capacity;
      pdata := pdata + [coords[i]];
      i := i + 1;
    }
    points := seq(|coords| / 3, p requires 0 <= p < |coords| / 3 => Point(pdata[3 * p], pdata[3 * p + 1], pdata[3 * p + 2]));
  }

  /** The coordinate buffer a point list stands for. */
  function FlattenPoints<T>(points: seq<Point<T>>): (r: seq<T>)
    ensures |r| == 3 * |points|
  {
    if |points| == 0 then []
    else
      var p := points[|points| - 1];
      FlattenPoints(points[..|points| - 1]) + [p.x, p.y, p.z]
  }

  /** Flattening the copied points gives the coordinate buffer back. */
  lemma {:induction false} PointsRoundTrip<T>(coords: seq<T>, points: seq<Point<T>>)
    requires |coords| % 3 == 0
    requires PointsOf(coords, points)
    ensures FlattenPoints(points) == coords
    decreases |points|
  {
    if |points| > 0 {
      var n := |points|;
      var init := coords[..|coords| - 3];
      assert PointsOf(init, points[..n - 1]) by {
        forall p | 0 <= p < n - 1
          ensures points[..n - 1][p] == Point(init[3 * p], init[3 * p + 1], init[3 * p + 2])
        {
          assert points[p] == Point(coords[3 * p], coords[3 * p + 1], coords[3 * p + 2]);
        }
      }
      PointsRoundTrip(init, points[..n - 1]);
      assert points[n - 1] == Point(coords[3 * (n - 1)], coords[3 * (n - 1) + 1], coords[3 * (n - 1) + 2]);
      assert coords == init + [coords[|coords| - 3], coords[|coords| - 2], coords[|coords| - 1]];
    } else {
      assert |coords| == 0;
    }
  }

  // ---------------------------------------------------------------- cells

  /** `cells` are the consecutive groups of `Arity(mode2d)` node ids, in order. */
  ghost predicate CellsOf(nodeids: seq<int>, mode2d: bool, cells: seq<Cell>)
  {
    var a := Arity(mode2d);
    && |cells| == |nodeids| / a
    && forall k :: 0 <= k < |cells| ==>
         k * a + a <= |nodeids| && cells[k] == Cell(Kind(mode2d), nodeids[k * a .. k * a + a])
  }

  /**
   Builds `|nodeids| / arity` cells from consecutive groups of node ids with a
   running read position; ids after the last whole group are not read.
   */
  method BuildCells(nodeids: seq<int>, mode2d: bool) returns (cells: seq<Cell>)
    ensures CellsOf(nodeids, mode2d, cells)
  {
    var a := Arity(mode2d);
    var kind := Kind(mode2d);
    cells := [];
    var gi := 0;
    var k := 0;
    while k < |nodeids| / a
      invariant 0 <= k <= |nodeids| / a
      invariant gi == k * a
      invariant |cells| == k
      invariant forall m :: 0 <= m < k ==>
        m * a + a <= |nodeids| && cells[m] == Cell(kind, nodeids[m * a .. m * a + a])
    {
      GroupInBounds(k, a, |nodeids|);
      var ids: seq<int> := [];
      var i := 0;
      while i < a
        invariant 0 <= i <= a
        invariant gi == k * a + i
        invariant ids == nodeids[k * a .. k * a + i]
      {
        ids := ids + [nodeids[gi]];
        gi := gi + 1;
        i := i + 1;
      }
      cells := cells + [Cell(kind, ids)];
      k := k + 1;
    }
  }

  /** The node ids a cell list stands for. */
  function FlattenCells(cells: seq<Cell>): seq<int>
  {
    if |cells| == 0 then [] else FlattenCells(cells[..|cells| - 1]) + cells[|cells| - 1].pointIds
  }

  /**
   The cells hold the node ids up to the last whole group and nothing else:
   a remainder of `|nodeids| % arity` trailing ids is dropped.
   */
  lemma {:induction false} CellsCoverWholeGroups(nodeids: seq<int>, mode2d: bool, cells: seq<Cell>)
    requires CellsOf(nodeids, mode2d, cells)
    ensures |cells| * Arity(mode2d) <= |nodeids|
    ensures FlattenCells(cells) == nodeids[.. |cells| * Arity(mode2d)]
    ensures |nodeids| - |cells| * Arity(mode2d) == |nodeids| % Arity(mode2d)
    decreases |cells|
  {
    var a := Arity(mode2d);
    var n := |cells|;
    assert (|nodeids| / a) * a + |nodeids| % a == |nodeids|;
    if n > 0 {
      var m := n - 1;
      var init := nodeids[.. m * a + a - a];
      assert m * a + a == n * a;
      assert CellsOf(init, mode2d, cells[..m]) by {
        assert |init| / a == m;
        forall k | 0 <= k < m
          ensures k * a + a <= |init|
          ensures cells[..m][k] == Cell(Kind(mode2d), init[k * a .. k * a + a])
        {
          MulLe(k + 1, m, a);
          assert cells[k] == Cell(Kind(mode2d), nodeids[k * a .. k * a + a]);
        }
      }
      CellsCoverWholeGroups(init, mode2d, cells[..m]);
      assert cells[m] == Cell(Kind(mode2d), nodeids[m * a .. m * a + a]);
      assert FlattenCells(cells) == FlattenCells(cells[..m]) + cells[m].pointIds;
      assert nodeids[.. n * a] == init + nodeids[m * a .. m * a + a];
    }
  }

  // ---------------------------------------------------------------- block

  /**
   Fills one mesh block as the copy is written: points from the coordinates,
   cells from the node ids, and one field array per name-table slot, named
   after its slot, split as `FieldSplit.SplitFields` does.
   */
  method InsertData<T>(coords: seq<T>, values: seq<T>, nodeids: seq<int>, varnames: string,
                       components: seq<int>, mode2d: bool) returns (block: MeshBlock<T>)
    requires |coords| % 3 == 0
    requires FieldInput(|values|, NameTable.NameCount(varnames), components)
    ensures PointsOf(coords, block.points)
    ensures CellsOf(nodeids, mode2d, block.cells)
    ensures |block.fields| == NameTable.NameCount(varnames)
    ensures forall i :: 0 <= i < |block.fields| ==> block.fields[i].name == NameTable.SlotName(varnames, i)
    ensures block.fields == SplitFields(values, NameTable.DecodeNames(varnames), components)
  {
    var points := CopyPoints(coords);
    var cells := BuildCells(nodeids, mode2d);
    var names := NameTable.DecodeNames(varnames);
    block := MeshBlock(points, cells, SplitFields(values, names, components));
  }

  /**
   `InsertData` with the corrected field split of the multi-component copy;
   the data request itself builds `InsertData`'s block, as the code does.
   */
  method InsertDataIntended<T>(coords: seq<T>, values: seq<T>, nodeids: seq<int>, varnames: string,
                               components: seq<int>, mode2d: bool) returns (block: MeshBlock<T>)
    requires |coords| % 3 == 0
    requires PositiveCounts(components, NameTable.NameCount(varnames))
    ensures PointsOf(coords, block.points)
    ensures CellsOf(nodeids, mode2d, block.cells)
    ensures |block.fields| == NameTable.NameCount(varnames)
    ensures forall i :: 0 <= i < |block.fields| ==> block.fields[i].name == NameTable.SlotName(varnames, i)
    ensures block.fields == SplitFieldsIntended(values, NameTable.DecodeNames(varnames), components)
  {
    var points := CopyPoints(coords);
    var cells := BuildCells(nodeids, mode2d);
    var names := NameTable.DecodeNames(varnames);
    block := MeshBlock(points, cells, SplitFieldsIntended(values, names, components));
  }
}

=== FILE: name_table.dfy ===
/**
 The packed variable-name table handed back by the solver: a run of
 fixed-width character slots, one per variable. A name is read from its slot
 the way the reader does it: the slot is copied as a C string (so it ends at
 the first NUL, if any) and then cut before its first space.
 */
module NameTable {

  /** Width of one name slot, in characters. */
  const SlotWidth: nat := 255

  /** Number of names in a table: whole slots only. */
  function NameCount(table: string): nat
  {
    |table| / SlotWidth
  }

  /** Longest prefix of `s` that does not contain `stop`. */
  function TakeUntil(s: string, stop: char): (r: string)
    ensures r <= s
    ensures stop !in r
    ensures |r| < |s| ==> s[|r|] == stop
  {
    if |s| == 0 || s[0] == stop then []
    else [s[0]] + TakeUntil(s[1..], stop)
  }

  /** The slot that stores name `k` stays inside the table. */
  lemma SlotInTable(table: string, k: int)
    requires 0 <= k < NameCount(table)
    ensures 0 <= k * SlotWidth && k * SlotWidth + SlotWidth <= |table|
  {
  }

  /** The `SlotWidth` characters of slot `k`. */
  function Slot(table: string, k: int): (r: string)
    requires 0 <= k < NameCount(table)
    ensures |r| == SlotWidth
    ensures forall i :: 0 <= i < SlotWidth ==> r[i] == table[k * SlotWidth + i]
  {
    SlotInTable(table, k);
    table[k * SlotWidth .. k * SlotWidth + SlotWidth]
  }

  /**
   Name `k` of the table: slot `k` read up to (not including) its first
   space or NUL, whichever comes first; the whole slot when it has neither.
   */
  function SlotName(table: string, k: int): (r: string)
    requires 0 <= k < NameCount(table)
    ensures r <= Slot(table, k)
    ensures ' ' !in r && '\0' !in r
    ensures |r| < SlotWidth ==> Slot(table, k)[|r|] in {' ', '\0'}
  {
    TakeUntil(TakeUntil(Slot(table, k), '\0'), ' ')
  }

  /** All names of the table, in slot order. */
  function DecodeNames(table: string): (r: seq<string>)
    ensures |r| == NameCount(table)
    ensures forall k :: 0 <= k < |r| ==> r[k] == SlotName(table, k)
  {
    seq(NameCount(table), k requires 0 <= k < NameCount(table) => SlotName(table, k))
  }

  /** A name the table can carry: shorter than a slot, no space, no NUL. */
  predicate Storable(name: string)
  {
    |name| < SlotWidth && ' ' !in name && '\0' !in name
  }

  /** One slot as the solver writes it: the name padded with spaces. */
  function PadSlot(name: string): (r: string)
    requires |name| <= SlotWidth
    ensures |r| == SlotWidth
    ensures r[..|name|] == name
    ensures forall i :: |name| <= i < SlotWidth ==> r[i] == ' '
  {
    name + seq(SlotWidth - |name|, _ => ' ')
  }

  /** A table of space-padded slots, one per name. */
  function Pack(names: seq<string>): (r: string)
    requires forall i :: 0 <= i < |names| ==> Storable(names[i])
    ensures |r| == |names| * SlotWidth
  {
    if |names| == 0 then []
    else
      assert Storable(names[|names| - 1]);
      Pack(names[..|names| - 1]) + PadSlot(names[|names| - 1])
  }

  /** Slot `k` of a packed table is the padded `k`-th name. */
  lemma {:induction false} PackSlot(names: seq<string>, k: int)
    requires forall i :: 0 <= i < |names| ==> Storable(names[i])
    requires 0 <= k < |names|
    ensures NameCount(Pack(names)) == |names|
    ensures Slot(Pack(names), k) == PadSlot(names[k])
    decreases |names|
  {
    var n := |names|;
    var init := names[..n - 1];
    assert Pack(names) == Pack(init) + PadSlot(names[n - 1]);
    if k < n - 1 {
      PackSlot(init, k);
      assert Slot(Pack(names), k) == Slot(Pack(init), k);
    } else {
      assert Slot(Pack(names), k) == PadSlot(names[k]);
    }
  }

  /** `p` is the prefix `TakeUntil` stops at: it lacks `stop` and ends the string or meets `stop`. */
  lemma {:induction false} TakeUntilIs(s: string, stop: char, p: string)
    requires p <= s && stop !in p
    requires |p| == |s| || s[|p|] == stop
    ensures TakeUntil(s, stop) == p
    decreases |p|
  {
    if |p| > 0 {
      assert s[0] == p[0];
      TakeUntilIs(s[1..], stop, p[1..]);
      assert p == [p[0]] + p[1..];
    }
  }

  /** Cutting a padded slot gives the name back. */
  lemma PadSlotName(name: string)
    requires Storable(name)
    ensures TakeUntil(TakeUntil(PadSlot(name), '\0'), ' ') == name
  {
    var s := PadSlot(name);
    assert '\0' !in s by {
      assert s == name + seq(SlotWidth - |name|, _ => ' ');
    }
    TakeUntilIs(s, '\0', s);
    assert s[|name|] == ' ';
    TakeUntilIs(s, ' ', name);
  }

  /** A packed table has exactly one slot per name. */
  lemma PackSlotCount(names: seq<string>)
    requires forall i :: 0 <= i < |names| ==> Storable(names[i])
    ensures NameCount(Pack(names)) == |names|
  {
    var n := |names|;
    assert (n * SlotWidth) / SlotWidth == n;
  }

  /** Decoding a table of padded names returns exactly those names. */
  lemma DecodePackRoundTrip(names: seq<string>)
    requires forall i :: 0 <= i < |names| ==> Storable(names[i])
    ensures DecodeNames(Pack(names)) == names
  {
    var t := Pack(names);
    var d := DecodeNames(t);
    assert |d| == |names| by {
      PackSlotCount(names);
    }
    forall k | 0 <= k < |names|
      ensures d[k] == names[k]
    {
      PackSlot(names, k);
      PadSlotName(names[k]);
      assert d[k] == SlotName(t, k);
      assert Slot(t, k) == PadSlot(names[k]);
    }
  }
}

=== FILE: settings_file.dfy ===
/**
 The lines of the parameter file the reader writes for the solver before
 each data request: fixed keys in a fixed order, an optional mesh-file line,
 then one `VarName` line per variable selected in the catalog.
 */
module SettingsFile {
  import opened VarCatalog
  import Decimal
  import opened Wrappers

  /** The reader's user-facing settings that go into the file. */
  datatype Settings = Settings(
    nVisu: int,
    nodeTypeVisu: string,
    mode2d: bool,
    dgOnly: bool,
    meshFileOverwrite: string)

  /** One `key = value` line. */
  function Line(key: string, value: string): string
  {
    key + " = " + value
  }

  /**
   The selection snapshot: the status of every catalog position, each looked
   up by the name stored at that position.
   */
  function Selection(c: Catalog): (r: seq<bool>)
    ensures |r| == |c|
    ensures UniqueNames(c) ==> forall i :: 0 <= i < |c| ==> r[i] == c[i].enabled
  {
    var r := seq(|c|, i requires 0 <= i < |c| => IsEnabled(c, c[i].name));
    assert UniqueNames(c) ==> forall i :: 0 <= i < |c| ==> r[i] == c[i].enabled by {
      if UniqueNames(c) {
        FindEachUnique(c);
      }
    }
    r
  }

  /** Positions marked in `sel`, in increasing order: exactly the marked ones. */
  function EnabledIndices(sel: seq<bool>): (r: seq<nat>)
    ensures forall j :: 0 <= j < |r| ==> r[j] < |sel|
    ensures forall j, k :: 0 <= j < k < |r| ==> r[j] < r[k]
    ensures forall i :: 0 <= i < |sel| ==> (sel[i] <==> i in r)
    decreases |sel|
  {
    if |sel| == 0 then []
    else EnabledIndices(sel[..|sel| - 1]) + (if sel[|sel| - 1] then [|sel| - 1] else [])
  }

  /** The `VarName` lines, written for each selected position in catalog order. */
  function VarNameLines(c: Catalog, sel: seq<bool>): (r: seq<string>)
    requires |sel| == |c|
    ensures |r| == |EnabledIndices(sel)|
    decreases |c|
  {
    if |c| == 0 then []
    else
      VarNameLines(c[..|c| - 1], sel[..|sel| - 1])
      + (if sel[|sel| - 1] then [Line("VarName", c[|c| - 1].name)] else [])
  }

  /** Line `j` of the `VarName` part names the `j`-th selected position. */
  lemma {:induction false} VarNameLinesSelected(c: Catalog, sel: seq<bool>)
    requires |sel| == |c|
    ensures |VarNameLines(c, sel)| == |EnabledIndices(sel)|
    ensures forall j :: 0 <= j < |EnabledIndices(sel)| ==>
      VarNameLines(c, sel)[j] == Line("VarName", c[EnabledIndices(sel)[j]].name)
    decreases |c|
  {
    if |c| > 0 {
      var n := |c|;
      VarNameLinesSelected(c[..n - 1], sel[..n - 1]);
    }
  }

  /** Number of fixed lines before the `VarName` lines. */
  function HeaderCount(s: Settings): nat
  {
    if |s.meshFileOverwrite| > 0 then 5 else 4
  }

  function HeaderLines(s: Settings): (r: seq<string>)
    ensures |r| == HeaderCount(s)
    ensures r[0] == Line("NVisu", Decimal.IntToString(s.nVisu))
    ensures r[1] == Line("NodeTypeVisu", s.nodeTypeVisu)
    ensures r[2] == Line("VisuDimension", if s.mode2d then "2" else "3")
    ensures r[3] == Line("DGonly", if s.dgOnly then "T" else "F")
    ensures |s.meshFileOverwrite| > 0 ==> r[4] == Line("MeshFile", s.meshFileOverwrite)
  {
    [ Line("NVisu", Decimal.IntToString(s.nVisu)),
      Line("NodeTypeVisu", s.nodeTypeVisu),
      Line("VisuDimension", if s.mode2d then "2" else "3"),
      Line("DGonly", if s.dgOnly then "T" else "F") ]
    + (if |s.meshFileOverwrite| > 0 then [Line("MeshFile", s.meshFileOverwrite)] else [])
  }

  /**
   The parameter file, line by line: `NVisu`, `NodeTypeVisu`, `VisuDimension`
   (2 or 3), `DGonly` (T or F), `MeshFile` only when an override is set, then
   `VarName` for every selected catalog position, in catalog order.
   */
  function SettingsLines(s: Settings, c: Catalog): (r: seq<string>)
    ensures var h := HeaderCount(s); var idx := EnabledIndices(Selection(c));
      && |r| == h + |idx|
      && r[0] == Line("NVisu", Decimal.IntToString(s.nVisu))
      && r[1] == Line("NodeTypeVisu", s.nodeTypeVisu)
      && r[2] == Line("VisuDimension", if s.mode2d then "2" else "3")
      && r[3] == Line("DGonly", if s.dgOnly then "T" else "F")
      && (|s.meshFileOverwrite| > 0 ==> r[4] == Line("MeshFile", s.meshFileOverwrite))
      && (forall j :: 0 <= j < |idx| ==> r[h + j] == Line("VarName", c[idx[j]].name))
  {
    var sel := Selection(c);
    var h := HeaderLines(s);
    var v := VarNameLines(c, sel);
    VarNameLinesSelected(c, sel);
    AppendedVarNames(h, v, c, EnabledIndices(sel));
    h + v
  }

  /** Appending the `VarName` lines after a header shifts each by the header's length. */
  lemma AppendedVarNames(h: seq<string>, v: seq<string>, c: Catalog, idx: seq<nat>)
    requires |v| == |idx|
    requires forall j :: 0 <= j < |idx| ==> idx[j] < |c| && v[j] == Line("VarName", c[idx[j]].name)
    ensures forall i :: 0 <= i < |h| ==> (h + v)[i] == h[i]
    ensures forall j :: 0 <= j < |idx| ==> (h + v)[|h| + j] == Line("VarName", c[idx[j]].name)
  {
  }

  /** Names of the selected variables, in catalog order. */
  function EnabledNames(c: Catalog): (r: seq<string>)
    ensures |r| == |EnabledIndices(Selection(c))|
  {
    var idx := EnabledIndices(Selection(c));
    seq(|idx|, j requires 0 <= j < |idx| => c[idx[j]].name)
  }

  /** With unique names, a name is selected for the file exactly when it is listed and enabled. */
  lemma EnabledNamesMembership(c: Catalog, name: string)
    requires UniqueNames(c)
    ensures name in EnabledNames(c) <==> Contains(c, name) && IsEnabled(c, name)
  {
    var sel := Selection(c);
    var idx := EnabledIndices(sel);
    var r := EnabledNames(c);
    FindEachUnique(c);
    if name in r {
      var j :| 0 <= j < |r| && r[j] == name;
      assert c[idx[j]].name == name;
      assert Find(c, name) == Some(idx[j]);
    }
    if Contains(c, name) && IsEnabled(c, name) {
      var k := Find(c, name).value;
      assert sel[k];
      var j :| 0 <= j < |idx| && idx[j] == k;
      assert r[j] == name;
    }
  }

  const VarNamePrefix: string := "VarName = "

  /** What a reader of the file sees: the values of its `VarName` lines, in file order. */
  function VarNameValues(lines: seq<string>): seq<string>
    decreases |lines|
  {
    if |lines| == 0 then []
    else
      (if VarNamePrefix <= lines[0] then [lines[0][|VarNamePrefix|..]] else [])
      + VarNameValues(lines[1..])
  }

  lemma {:induction false} VarNameValuesConcat(a: seq<string>, b: seq<string>)
    ensures VarNameValues(a + b) == VarNameValues(a) + VarNameValues(b)
    decreases |a|
  {
    if |a| == 0 {
      assert a + b == b;
    } else {
      assert (a + b)[0] == a[0];
      assert (a + b)[1..] == a[1..] + b;
      VarNameValuesConcat(a[1..], b);
    }
  }

  /** The header lines carry no `VarName` key. */
  lemma HeaderHasNoVarName(s: Settings)
    ensures VarNameValues(HeaderLines(s)) == []
  {
    var h := HeaderLines(s);
    forall i | 0 <= i < |h|
      ensures !(VarNamePrefix <= h[i])
    {
      assert h[i][1] != VarNamePrefix[1] || h[i][0] != VarNamePrefix[0];
    }
    NoVarNameLines(h);
  }

  /** Lines none of which starts with the `VarName` key read back as no names. */
  lemma {:induction false} NoVarNameLines(lines: seq<string>)
    requires forall i :: 0 <= i < |lines| ==> !(VarNamePrefix <= lines[i])
    ensures VarNameValues(lines) == []
    decreases |lines|
  {
    if |lines| > 0 {
      assert !(VarNamePrefix <= lines[0]);
      NoVarNameLines(lines[1..]);
    }
  }

  /** Reading the `VarName` lines back from the file yields the selected names, in catalog order. */
  lemma SettingsReadBack(s: Settings, c: Catalog)
    ensures VarNameValues(SettingsLines(s, c)) == EnabledNames(c)
  {
    var sel := Selection(c);
    var idx := EnabledIndices(sel);
    var vl := VarNameLines(c, sel);
    VarNameLinesSelected(c, sel);
    VarNameValuesConcat(HeaderLines(s), vl);
    HeaderHasNoVarName(s);
    VarNameLinesRead(vl, EnabledNames(c));
  }

  /** Lines that are all `VarName = x` read back as their `x`s. */
  lemma {:induction false} VarNameLinesRead(lines: seq<string>, names: seq<string>)
    requires |lines| == |names|
    requires forall j :: 0 <= j < |lines| ==> lines[j] == Line("VarName", names[j])
    ensures VarNameValues(lines) == names
    decreases |lines|
  {
    if |lines| > 0 {
      assert lines[0] == VarNamePrefix + names[0];
      assert VarNamePrefix <= lines[0];
      assert lines[0][|VarNamePrefix|..] == names[0];
      VarNameLinesRead(lines[1..], names[1..]);
    }
  }

  /** The example catalog: Density and Mach enabled, Pressure not. */
  predicate ExampleCatalog(c: Catalog)
  {
    c == [Entry("Density", true), Entry("Pressure", false), Entry("Mach", true)]
  }

  /** The example catalog's snapshot: Density and Mach selected, Pressure not. */
  lemma ExampleSelection(c: Catalog)
    requires ExampleCatalog(c)
    ensures Selection(c) == [true, false, true]
  {
    assert c[0].name != c[1].name && c[0].name != c[2].name && c[1].name != c[2].name;
    assert UniqueNames(c);
  }

  /** The selected positions of that snapshot. */
  lemma ExampleIndices(sel: seq<bool>)
    requires sel == [true, false, true]
    ensures EnabledIndices(sel) == [0, 2]
  {
    assert sel[..2][..1] == [true];
    assert EnabledIndices(sel[..2][..1]) == [0];
    assert EnabledIndices(sel[..2]) == [0];
  }

  /** Resolution 5 in 3D mode with Density and Mach selected. */
  lemma SettingsExample(s: Settings, c: Catalog)
    requires s == Settings(5, "VISU", false, false, "")
    requires ExampleCatalog(c)
    ensures SettingsLines(s, c)
         == [Line("NVisu", "5"), Line("NodeTypeVisu", "VISU"), Line("VisuDimension", "3"),
             Line("DGonly", "F"), Line("VarName", "Density"), Line("VarName", "Mach")]
  {
    ExampleSelection(c);
    ExampleIndices(Selection(c));
    assert Decimal.IntToString(5) == "5" by {
      assert Decimal.NatToString(5) == [Decimal.DigitChar(5)];
    }
    var lines := SettingsLines(s, c);
    assert |lines| == 6;
    assert lines[4] == Line("VarName", c[0].name);
    assert lines[5] == Line("VarName", c[2].name);
  }
}

=== FILE: timestep_index.dfy ===
/**
 The timestep index of the reader: the timestamps registered with the state
 files, the nearest-timestamp lookup used when the host asks for a time, and
 the time range published to the host.
 */
module TimestepIndex {

  /** Absolute value, standing in for `fabs`. */
  function Abs(x: real): (r: real)
    ensures r >= 0.0
    ensures r == x || r == -x
  {
    if x < 0.0 then -x else x
  }

  /** Distance of a registered timestamp from the requested time. */
  function Dist(t: real, q: real): real
  {
    Abs(t - q)
  }

  /**
   `k` is the index the lookup promises: it is in range, no timestamp is
   strictly closer to `q`, and every earlier index is strictly farther (so
   among equally close entries the first one wins).
   */
  predicate IsFirstClosest(ts: seq<real>, q: real, k: int)
  {
    && 0 <= k < |ts|
    && (forall j :: 0 <= j < |ts| ==> Dist(ts[k], q) <= Dist(ts[j], q))
    && (forall j :: 0 <= j < k ==> Dist(ts[k], q) < Dist(ts[j], q))
  }

  /** At most one index satisfies the lookup's promise. */
  lemma FirstClosestUnique(ts: seq<real>, q: real, k1: int, k2: int)
    requires IsFirstClosest(ts, q, k1)
    requires IsFirstClosest(ts, q, k2)
    ensures k1 == k2
  {
    assert Dist(ts[k1], q) <= Dist(ts[k2], q);
    assert Dist(ts[k2], q) <= Dist(ts[k1], q);
  }

  /**
   Reference definition of the lookup: scan the list and replace the current
   choice only when the next entry is strictly closer.
   */
  function ClosestIndex(ts: seq<real>, q: real): (k: nat)
    requires |ts| > 0
    ensures IsFirstClosest(ts, q, k)
    decreases |ts|
  {
    if |ts| == 1 then 0
    else
      var k := ClosestIndex(ts[..|ts| - 1], q);
      if Dist(ts[|ts| - 1], q) < Dist(ts[k], q) then |ts| - 1 else k
  }

  /**
   The lookup as the reader performs it: start with index 0, walk every
   entry (index 0 included) and keep the first strictly smaller distance.
   The caller guarantees a non-empty list: the first entry is read unguarded.
   */
  method FindClosestTimeStep(ts: seq<real>, q: real) returns (k: nat)
    requires |ts| > 0
    ensures IsFirstClosest(ts, q, k)
    ensures k == ClosestIndex(ts, q)
  {
    k := 0;
    var minDist := Dist(ts[0], q);
    var i := 0;
    while i < |ts|
      invariant 0 <= i <= |ts|
      invariant k < |ts|
      invariant minDist == Dist(ts[k], q)
      invariant forall j :: 0 <= j < i ==> minDist <= Dist(ts[j], q)
      invariant forall j :: 0 <= j < k ==> minDist < Dist(ts[j], q)
    {
      var dist := Dist(ts[i], q);
      if dist < minDist {
        minDist := dist;
        k := i;
      }
      i := i + 1;
    }
    FirstClosestUnique(ts, q, k, ClosestIndex(ts, q));
  }

  /** The entries are registered in non-decreasing time order. */
  predicate Sorted(ts: seq<real>)
  {
    forall i, j :: 0 <= i < j < |ts| ==> ts[i] <= ts[j]
  }

  /**
   The time range published to the host: the first and the last registered
   timestamps, whatever their order.
   */
  function TimeRange(ts: seq<real>): (r: (real, real))
    requires |ts| > 0
    ensures r.0 in ts && r.1 in ts
    ensures r.0 == ts[0] && r.1 == ts[|ts| - 1]
  {
    (ts[0], ts[|ts| - 1])
  }

  /** When the files were registered in time order, the range bounds every timestamp. */
  lemma SortedRangeBounds(ts: seq<real>)
    requires |ts| > 0 && Sorted(ts)
    ensures forall i :: 0 <= i < |ts| ==> TimeRange(ts).0 <= ts[i] <= TimeRange(ts).1
  {
  }

  /** Two files registered in reverse time order publish a reversed range. */
  lemma UnsortedRangeReversed()
    ensures !Sorted([2.0, 1.0])
    ensures TimeRange([2.0, 1.0]).0 > TimeRange([2.0, 1.0]).1
  {
    var ts := [2.0, 1.0];
    assert ts[0] > ts[1];
  }

  /** The range is reversed exactly when the first file's time lies after the last file's. */
  lemma RangeReversedIff(ts: seq<real>)
    requires |ts| > 0
    ensures TimeRange(ts).0 > TimeRange(ts).1 <==> ts[0] > ts[|ts| - 1]
  {
  }

  /**
   An unsorted registration can also give a range in the right direction
   that still leaves a registered timestamp outside it.
   */
  lemma UnsortedRangeExcludes()
    ensures var ts := [1.0, 3.0, 2.0];
      && !Sorted(ts)
      && TimeRange(ts).0 <= TimeRange(ts).1
      && 3.0 in ts && !(TimeRange(ts).0 <= 3.0 <= TimeRange(ts).1)
  {
    var ts := [1.0, 3.0, 2.0];
    assert ts[1] > ts[2];
  }
}

=== FILE: var_catalog.dfy ===
/**
 The variable catalog behind the reader's variable-selection GUI: an ordered
 list of (name, enabled) entries. Lookups find the first entry with a name;
 enabling or disabling a name that is not listed appends it. Discovery adds
 the names read from a state file and never touches entries already listed.
 */
module VarCatalog {
  import opened Wrappers

  datatype Entry = Entry(name: string, enabled: bool)

  type Catalog = seq<Entry>

  /** The two names that start out enabled when first discovered. */
  const Density: string := "Density"
  const FVElems: string := "ElemData:FV_Elems"

  predicate DefaultEnabled(name: string)
  {
    name == Density || name == FVElems
  }

  /** Position of the first entry called `name`, if any. */
  function Find(c: Catalog, name: string): (r: Option<nat>)
    ensures r.Some? ==> r.value < |c| && c[r.value].name == name
    ensures r.Some? ==> forall j :: 0 <= j < r.value ==> c[j].name != name
    ensures r.None? ==> forall j :: 0 <= j < |c| ==> c[j].name != name
  {
    if |c| == 0 then None
    else if c[0].name == name then Some(0)
    else match Find(c[1..], name)
      case None => None
      case Some(k) => Some(k + 1)
  }

  /** The catalog lists `name`. */
  predicate Contains(c: Catalog, name: string)
    ensures Contains(c, name) <==> exists j :: 0 <= j < |c| && c[j].name == name
  {
    Find(c, name).Some?
  }

  /** No name is listed twice. */
  predicate UniqueNames(c: Catalog)
  {
    forall i, j :: 0 <= i < j < |c| ==> c[i].name != c[j].name
  }

  /** Status of `name`; a name that is not listed counts as disabled. */
  function IsEnabled(c: Catalog, name: string): (r: bool)
    ensures r ==> Contains(c, name)
    ensures r <==> exists j :: 0 <= j < |c| && c[j].name == name && c[j].enabled
                              && forall i :: 0 <= i < j ==> c[i].name != name
  {
    match Find(c, name)
    case None => false
    case Some(k) => c[k].enabled
  }

  /** Give `name` the status `enabled`, appending it when it is not listed. */
  function SetStatus(c: Catalog, name: string, enabled: bool): (r: Catalog)
    ensures Contains(c, name) ==> |r| == |c|
    ensures !Contains(c, name) ==> r == c + [Entry(name, enabled)]
    ensures forall j :: 0 <= j < |c| ==> r[j].name == c[j].name
    ensures forall j :: 0 <= j < |c| && c[j].name != name ==> r[j] == c[j]
    ensures Contains(c, name) ==> r[Find(c, name).value] == Entry(name, enabled)
  {
    match Find(c, name)
    case None => c + [Entry(name, enabled)]
    case Some(k) => c[k := Entry(name, enabled)]
  }

  /** After setting a status, reading it back gives that status and no other name changes. */
  lemma SetStatusThenRead(c: Catalog, name: string, enabled: bool, other: string)
    ensures IsEnabled(SetStatus(c, name, enabled), name) == enabled
    ensures Contains(SetStatus(c, name, enabled), name)
    ensures other != name ==> IsEnabled(SetStatus(c, name, enabled), other) == IsEnabled(c, other)
    ensures other != name ==> (Contains(SetStatus(c, name, enabled), other) <==> Contains(c, other))
  {
    var r := SetStatus(c, name, enabled);
    FindAfterSet(c, name, enabled, name);
    FindAfterSet(c, name, enabled, other);
  }

  /** Where names are found after `SetStatus`: positions never move. */
  lemma FindAfterSet(c: Catalog, name: string, enabled: bool, other: string)
    ensures Find(SetStatus(c, name, enabled), name).Some?
    ensures Find(SetStatus(c, name, enabled), name).value
         == (if Find(c, name).Some? then Find(c, name).value else |c|)
    ensures SetStatus(c, name, enabled)[Find(SetStatus(c, name, enabled), name).value].enabled == enabled
    ensures other != name ==> Find(SetStatus(c, name, enabled), other) == Find(c, other)
  {
    var r := SetStatus(c, name, enabled);
    var fr := Find(r, name);
    if Find(c, name).None? {
      assert r[|c|].name == name;
    }
    FindIs(r, name, if Find(c, name).Some? then Find(c, name).value else |c|);
    if other != name {
      match Find(c, other)
      case None =>
        FindNone(r, other);
      case Some(k) =>
        FindIs(r, other, k);
    }
  }

  /** `Find` returns the first position holding `name`. */
  lemma {:induction false} FindIs(c: Catalog, name: string, k: nat)
    requires k < |c| && c[k].name == name
    requires forall j :: 0 <= j < k ==> c[j].name != name
    ensures Find(c, name) == Some(k)
    decreases k
  {
    if k > 0 {
      assert c[0].name != name;
      FindIs(c[1..], name, k - 1);
    }
  }

  /** `Find` fails exactly when no entry holds `name`. */
  lemma {:induction false} FindNone(c: Catalog, name: string)
    requires forall j :: 0 <= j < |c| ==> c[j].name != name
    ensures Find(c, name) == None
    decreases |c|
  {
    if |c| > 0 {
      assert c[0].name != name;
      FindNone(c[1..], name);
    }
  }

  /** With unique names, every entry is the first one holding its name. */
  lemma FindEachUnique(c: Catalog)
    requires UniqueNames(c)
    ensures forall i :: 0 <= i < |c| ==> Find(c, c[i].name) == Some(i)
  {
    forall i | 0 <= i < |c|
      ensures Find(c, c[i].name) == Some(i)
    {
      FindIs(c, c[i].name, i);
    }
  }

  /** Setting a status keeps names unique. */
  lemma SetStatusUnique(c: Catalog, name: string, enabled: bool)
    requires UniqueNames(c)
    ensures UniqueNames(SetStatus(c, name, enabled))
  {
  }

  /** Give every entry the status `enabled`; names and order stay. */
  function SetAll(c: Catalog, enabled: bool): (r: Catalog)
    ensures |r| == |c|
    ensures forall j :: 0 <= j < |r| ==> r[j] == Entry(c[j].name, enabled)
  {
    seq(|c|, j requires 0 <= j < |c| => Entry(c[j].name, enabled))
  }

  /** After a bulk set, every listed name reads back with that status. */
  lemma SetAllThenRead(c: Catalog, enabled: bool, name: string)
    ensures Contains(SetAll(c, enabled), name) <==> Contains(c, name)
    ensures Contains(c, name) ==> IsEnabled(SetAll(c, enabled), name) == enabled
  {
    var r := SetAll(c, enabled);
    match Find(c, name)
    case None =>
      FindNone(r, name);
    case Some(k) =>
      FindIs(r, name, k);
  }

  /**
   Discovery of one name: when it is not listed it is inserted disabled, and
   then enabled again if it is one of the two default names.
   */
  function DiscoverOne(c: Catalog, name: string): (r: Catalog)
    ensures Contains(c, name) ==> r == c
    ensures !Contains(c, name) ==> r == c + [Entry(name, DefaultEnabled(name))]
  {
    if Contains(c, name) then c
    else
      var inserted := SetStatus(c, name, false);
      FindAfterSet(c, name, false, name);
      var afterDensity := if name == Density then SetStatus(inserted, name, true) else inserted;
      if name == FVElems then SetStatus(afterDensity, name, true) else afterDensity
  }

  /** Discovery of a whole name list, in order. */
  function Discover(c: Catalog, names: seq<string>): (r: Catalog)
    ensures |c| <= |r| <= |c| + |names|
    decreases |names|
  {
    if |names| == 0 then c
    else Discover(DiscoverOne(c, names[0]), names[1..])
  }

  /** Discovery only appends: every entry already listed keeps its place and status. */
  lemma {:induction false} DiscoverExtends(c: Catalog, names: seq<string>)
    ensures c <= Discover(c, names)
    decreases |names|
  {
    if |names| > 0 {
      DiscoverExtends(DiscoverOne(c, names[0]), names[1..]);
    }
  }

  /** `Find` on an extended catalog agrees with `Find` on the original, for listed names. */
  lemma FindInPrefix(c: Catalog, d: Catalog, name: string)
    requires c <= d && Contains(c, name)
    ensures Find(d, name) == Find(c, name)
  {
    var k := Find(c, name).value;
    assert d[k] == c[k];
    FindIs(d, name, k);
  }

  /** Names listed before discovery keep their status. */
  lemma DiscoverPreservesStatus(c: Catalog, names: seq<string>, name: string)
    requires Contains(c, name)
    ensures Contains(Discover(c, names), name)
    ensures IsEnabled(Discover(c, names), name) == IsEnabled(c, name)
  {
    DiscoverExtends(c, names);
    FindInPrefix(c, Discover(c, names), name);
  }

  /** After discovery every discovered name is listed. */
  lemma {:induction false} DiscoverContains(c: Catalog, names: seq<string>)
    ensures forall i :: 0 <= i < |names| ==> Contains(Discover(c, names), names[i])
    decreases |names|
  {
    if |names| > 0 {
      var c1 := DiscoverOne(c, names[0]);
      DiscoverContains(c1, names[1..]);
      if !Contains(c, names[0]) {
        FindIs(c1, names[0], |c|);
      }
      DiscoverPreservesStatus(c1, names[1..], names[0]);
      forall i | 1 <= i < |names|
        ensures Contains(Discover(c, names), names[i])
      {
        assert names[i] == names[1..][i - 1];
      }
    }
  }

  /**
   Every entry discovery appends carries a discovered name that was not listed
   before, and it is enabled exactly when it is one of the two default names.
   */
  lemma {:induction false} DiscoverAppendsDefaults(c: Catalog, names: seq<string>)
    ensures forall j :: |c| <= j < |Discover(c, names)| ==>
      && Discover(c, names)[j].name in names
      && !Contains(c, Discover(c, names)[j].name)
      && Discover(c, names)[j].enabled == DefaultEnabled(Discover(c, names)[j].name)
    decreases |names|
  {
    if |names| > 0 {
      var c1 := DiscoverOne(c, names[0]);
      var d := Discover(c, names);
      DiscoverAppendsDefaults(c1, names[1..]);
      DiscoverExtends(c1, names[1..]);
      forall j | |c| <= j < |d|
        ensures d[j].name in names
        ensures !Contains(c, d[j].name)
        ensures d[j].enabled == DefaultEnabled(d[j].name)
      {
        if j < |c1| {
          assert d[j] == c1[j] == Entry(names[0], DefaultEnabled(names[0]));
        } else {
          assert d[j].name in names[1..];
          assert !Contains(c1, d[j].name);
          if Contains(c, d[j].name) {
            FindInPrefix(c, c1, d[j].name);
          }
        }
      }
    }
  }

  /** Position of the first occurrence of `name` in a name list that holds it. */
  function FirstIndex(names: seq<string>, name: string): (k: nat)
    requires name in names
    ensures k < |names| && names[k] == name
    ensures forall i :: 0 <= i < k ==> names[i] != name
  {
    if names[0] == name then 0 else 1 + FirstIndex(names[1..], name)
  }

  /**
   Discovery appends in table order: of two appended entries, the earlier one
   carries the name that occurs first in the discovered list.
   */
  lemma {:induction false} DiscoverInTableOrder(c: Catalog, names: seq<string>)
    ensures var d := Discover(c, names);
      forall j1, j2 :: |c| <= j1 < j2 < |d| ==>
        && d[j1].name in names && d[j2].name in names
        && FirstIndex(names, d[j1].name) < FirstIndex(names, d[j2].name)
    decreases |names|
  {
    if |names| > 0 {
      var c1 := DiscoverOne(c, names[0]);
      var tail := names[1..];
      var d := Discover(c, names);
      assert d == Discover(c1, tail);
      DiscoverInTableOrder(c1, tail);
      DiscoverAppendsDefaults(c1, tail);
      DiscoverExtends(c1, tail);
      assert Contains(c1, names[0]) by {
        if !Contains(c, names[0]) {
          assert c1[|c|].name == names[0];
        }
      }
      forall j | |c1| <= j < |d|
        ensures d[j].name in names && d[j].name != names[0]
        ensures FirstIndex(names, d[j].name) == 1 + FirstIndex(tail, d[j].name)
      {
        assert d[j].name in tail && !Contains(c1, d[j].name);
      }
      forall j1, j2 | |c| <= j1 < j2 < |d|
        ensures d[j1].name in names && d[j2].name in names
        ensures FirstIndex(names, d[j1].name) < FirstIndex(names, d[j2].name)
      {
        if j1 < |c1| {
          assert d[j1] == c1[j1] && c1[j1].name == names[0];
        }
      }
    }
  }

  /** Discovery inserts each name at most once: a catalog with unique names keeps them unique. */
  lemma {:induction false} DiscoverUnique(c: Catalog, names: seq<string>)
    requires UniqueNames(c)
    ensures UniqueNames(Discover(c, names))
    decreases |names|
  {
    if |names| > 0 {
      var c1 := DiscoverOne(c, names[0]);
      if !Contains(c, names[0]) {
        assert UniqueNames(c1);
      }
      DiscoverUnique(c1, names[1..]);
    }
  }

  /** Discovering names that are all listed already changes nothing. */
  lemma {:induction false} DiscoverListed(c: Catalog, names: seq<string>)
    requires forall i :: 0 <= i < |names| ==> Contains(c, names[i])
    ensures Discover(c, names) == c
    decreases |names|
  {
    if |names| > 0 {
      assert Contains(c, names[0]);
      forall i | 0 <= i < |names| - 1
        ensures Contains(c, names[1..][i])
      {
        assert names[1..][i] == names[i + 1];
      }
      DiscoverListed(c, names[1..]);
    }
  }

  /** Repeating a discovery with the same names is a no-op. */
  lemma DiscoverIdempotent(c: Catalog, names: seq<string>)
    ensures Discover(Discover(c, names), names) == Discover(c, names)
  {
    DiscoverContains(c, names);
    DiscoverListed(Discover(c, names), names);
  }

  /** Discovery of Density, Pressure and the FV element marker into an empty catalog. */
  lemma DiscoverDefaultsExample()
    ensures Discover([], ["Density", "Pressure", "ElemData:FV_Elems"])
         == [Entry("Density", true), Entry("Pressure", false), Entry("ElemData:FV_Elems", true)]
  {
    var c1 := DiscoverOne([], "Density");
    assert c1 == [Entry("Density", true)];
    var c2 := DiscoverOne(c1, "Pressure");
    assert !Contains(c1, "Pressure");
    assert c2 == [Entry("Density", true), Entry("Pressure", false)];
    assert !Contains(c2, "ElemData:FV_Elems");
    var names := ["Density", "Pressure", "ElemData:FV_Elems"];
    assert names[1..] == ["Pressure", "ElemData:FV_Elems"];
    assert names[1..][1..] == ["ElemData:FV_Elems"];
  }
}

=== FILE: visu3d_reader.dfy ===
/**
 The reader object: its file list with timestamps, its variable catalog and
 settings, the two pipeline phases (information and data requests) and the
 accessors the variable-selection GUI calls.
 */
module Visu3DReader {
  import opened Wrappers
  import opened TimestepIndex
  import NameTable
  import opened VarCatalog
  import opened SettingsFile
  import opened MeshMarshal
  import opened FieldSplit

  datatype ReaderState = ReaderState(
    fileNames: seq<string>,
    timesteps: seq<real>,
    catalog: Catalog,
    settings: Settings)

  /** One timestamp per registered file, and every variable listed once. */
  predicate Valid(st: ReaderState)
  {
    |st.fileNames| == |st.timesteps| && UniqueNames(st.catalog)
  }

  // ---------------------------------------------------------------- file list

  /**
   Registers one state file: its name and, together with it, its `Time`
   attribute, or 0 when the file has none.
   */
  function AddFileName(st: ReaderState, fileName: string, timeAttr: Option<real>): (r: ReaderState)
    ensures |r.fileNames| == |st.fileNames| + 1 && |r.timesteps| == |st.timesteps| + 1
    ensures r.fileNames[..|st.fileNames|] == st.fileNames && r.fileNames[|st.fileNames|] == fileName
    ensures r.timesteps[..|st.timesteps|] == st.timesteps
    ensures r.timesteps[|st.timesteps|] == (if timeAttr.Some? then timeAttr.value else 0.0)
    ensures r.catalog == st.catalog && r.settings == st.settings
    ensures Valid(st) ==> Valid(r)
  {
    st.(fileNames := st.fileNames + [fileName], timesteps := st.timesteps + [timeAttr.GetOr(0.0)])
  }

  /** Forgets all registered files: both lists are cleared together. */
  function RemoveAllFileNames(st: ReaderState): (r: ReaderState)
    ensures |r.fileNames| == 0 && |r.timesteps| == 0
    ensures r.catalog == st.catalog && r.settings == st.settings
    ensures Valid(st) ==> Valid(r)
  {
    st.(fileNames := [], timesteps := [])
  }

  /** The host registering a selection of files one after another. */
  function AddFileNames(st: ReaderState, files: seq<(string, Option<real>)>): ReaderState
    decreases |files|
  {
    if |files| == 0 then st
    else
      var last := files[|files| - 1];
      AddFileName(AddFileNames(st, files[..|files| - 1]), last.0, last.1)
  }

  /**
   After a reset and a run of registrations, file `i` and timestamp `i` both
   come from registration `i`.
   */
  lemma {:induction false} FileListPairs(st: ReaderState, files: seq<(string, Option<real>)>)
    ensures var r := AddFileNames(RemoveAllFileNames(st), files);
      && |r.fileNames| == |files| && |r.timesteps| == |files|
      && (forall i :: 0 <= i < |files| ==>
            r.fileNames[i] == files[i].0 && r.timesteps[i] == files[i].1.GetOr(0.0))
    decreases |files|
  {
    if |files| > 0 {
      var n := |files|;
      FileListPairs(st, files[..n - 1]);
      var r0 := AddFileNames(RemoveAllFileNames(st), files[..n - 1]);
      var r := AddFileNames(RemoveAllFileNames(st), files);
      assert r == AddFileName(r0, files[n - 1].0, files[n - 1].1);
      forall i | 0 <= i < n
        ensures r.fileNames[i] == files[i].0 && r.timesteps[i] == files[i].1.GetOr(0.0)
      {
        if i < n - 1 {
          assert r.fileNames[i] == r0.fileNames[i] && r.timesteps[i] == r0.timesteps[i];
          assert files[..n - 1][i] == files[i];
        }
      }
    }
  }

  // ---------------------------------------------------------------- information request

  /** What the information request publishes to the host, and the reader afterwards. */
  datatype InfoResult = InfoResult(status: int, state: ReaderState, timeSteps: seq<real>, timeRange: (real, real))

  /**
   The information request: publishes every timestamp and the range from the
   first to the last; when the state file's directory is found, discovers the
   variables of the solver's name table, otherwise reports failure and leaves
   the catalog alone.
   */
  function RequestInformation(st: ReaderState, dirFound: bool, varnames: string): (r: InfoResult)
    requires |st.fileNames| > 0 && |st.timesteps| > 0
    ensures r.timeSteps == st.timesteps
    ensures r.timeRange == (st.timesteps[0], st.timesteps[|st.timesteps| - 1])
    ensures !dirFound ==> r.status == 0 && r.state == st
    ensures dirFound ==> r.status == 1
    ensures dirFound ==> r.state.fileNames == st.fileNames && r.state.timesteps == st.timesteps
    ensures dirFound ==> r.state.settings == st.settings && st.catalog <= r.state.catalog
    ensures dirFound ==> forall k :: 0 <= k < NameTable.NameCount(varnames) ==>
                           Contains(r.state.catalog, NameTable.SlotName(varnames, k))
    ensures dirFound ==> forall j :: |st.catalog| <= j < |r.state.catalog| ==>
      && r.state.catalog[j].name in NameTable.DecodeNames(varnames)
      && !Contains(st.catalog, r.state.catalog[j].name)
      && r.state.catalog[j].enabled == DefaultEnabled(r.state.catalog[j].name)
    ensures dirFound ==> r.state.catalog == Discover(st.catalog, NameTable.DecodeNames(varnames))
    ensures Valid(st) ==> Valid(r.state)
  {
    var range := TimeRange(st.timesteps);
    if !dirFound then InfoResult(0, st, st.timesteps, range)
    else
      var names := NameTable.DecodeNames(varnames);
      var catalog := Discover(st.catalog, names);
      DiscoverExtends(st.catalog, names);
      DiscoverContains(st.catalog, names);
      DiscoverAppendsDefaults(st.catalog, names);
      assert UniqueNames(st.catalog) ==> UniqueNames(catalog) by {
        if UniqueNames(st.catalog) {
          DiscoverUnique(st.catalog, names);
        }
      }
      InfoResult(1, st.(catalog := catalog), st.timesteps, range)
  }

  /** Repeating the information request on the same name table leaves the reader as it was. */
  lemma RequestInformationIdempotent(st: ReaderState, varnames: string)
    requires |st.fileNames| > 0 && |st.timesteps| > 0
    ensures var once := RequestInformation(st, true, varnames).state;
      RequestInformation(once, true, varnames).state == once
  {
    DiscoverIdempotent(st.catalog, NameTable.DecodeNames(varnames));
  }

  // ---------------------------------------------------------------- data request

  /** The buffers the solver hands back for one data request; both blocks share the name table and counts. */
  datatype SolverOutput<T> = SolverOutput(
    coordsDG: seq<T>, valuesDG: seq<T>, nodeidsDG: seq<int>,
    coordsFV: seq<T>, valuesFV: seq<T>, nodeidsFV: seq<int>,
    varnames: string, components: seq<int>)

  /** The solver's buffers are ones both blocks can be filled from by the copy as written. */
  predicate Insertable<T>(out: SolverOutput<T>)
  {
    && |out.coordsDG| % 3 == 0 && |out.coordsFV| % 3 == 0
    && FieldInput(|out.valuesDG|, NameTable.NameCount(out.varnames), out.components)
    && FieldInput(|out.valuesFV|, NameTable.NameCount(out.varnames), out.components)
  }

  /**
   Outcome of a data request: the status returned to the host, the state
   file loaded, the parameter-file lines (when written), the DG and FV
   blocks (when built) and whether the solver was asked to release its buffers.
   */
  datatype DataResult<T> = DataResult(
    status: int,
    fileToLoad: string,
    settingsLines: Option<seq<string>>,
    blocks: Option<(MeshBlock<T>, MeshBlock<T>)>,
    buffersReleased: bool)

  /** `block` is what `InsertData` builds from one representation's buffers. */
  ghost predicate BlockFrom<T>(block: MeshBlock<T>, coords: seq<T>, values: seq<T>, nodeids: seq<int>,
                               varnames: string, components: seq<int>, mode2d: bool)
    requires FieldInput(|values|, NameTable.NameCount(varnames), components)
  {
    && PointsOf(coords, block.points)
    && CellsOf(nodeids, mode2d, block.cells)
    && block.fields == SplitFields(values, NameTable.DecodeNames(varnames), components)
  }

  /**
   For scalar variables (every component count 1) a block the data request
   builds carries the intended split: it consumes the values buffer up to
   the covered length with no gap.
   */
  lemma ScalarBlockTiles<T>(block: MeshBlock<T>, coords: seq<T>, values: seq<T>, nodeids: seq<int>,
                            varnames: string, components: seq<int>, mode2d: bool)
    requires NameTable.NameCount(varnames) <= |components|
    requires forall i :: 0 <= i < NameTable.NameCount(varnames) ==> components[i] == 1
    requires FieldInput(|values|, NameTable.NameCount(varnames), components)
    requires BlockFrom(block, coords, values, nodeids, varnames, components, mode2d)
    ensures block.fields == SplitFieldsIntended(values, NameTable.DecodeNames(varnames), components)
    ensures NameTable.NameCount(varnames) > 0 ==>
      FlattenData(block.fields) == values[.. CoveredLength(|values|, components, NameTable.NameCount(varnames))]
  {
    var names := NameTable.DecodeNames(varnames);
    ScalarSplitsAgree(values, names, components);
    if |names| > 0 {
      IntendedTiles(values, names, components);
    }
  }

  /**
   The data request. With a requested time the file with the closest
   timestamp is loaded (no file otherwise). If its directory is missing the
   request fails before the parameter file is written. Otherwise the
   parameter lines are written and the solver runs; if the host's output is
   not a multi-block container the request fails there, before the buffers
   are released; otherwise the DG block and then the FV block are filled and
   the buffers are released. The blocks carry the field split as the copy is
   written; for scalar variables that is the intended split (`ScalarBlockTiles`).
   */
  method RequestData<T>(st: ReaderState, requestedTime: Option<real>, dirFound: bool,
                        out: SolverOutput<T>, outputIsMultiBlock: bool) returns (r: DataResult<T>)
    requires Valid(st)
    requires requestedTime.Some? ==> |st.timesteps| > 0
    requires dirFound && outputIsMultiBlock ==> Insertable(out)
    ensures requestedTime.Some? ==>
      exists k :: IsFirstClosest(st.timesteps, requestedTime.value, k) && r.fileToLoad == st.fileNames[k]
    ensures requestedTime.None? ==> r.fileToLoad == ""
    ensures !dirFound ==> r.status == 0 && r.settingsLines.None? && r.blocks.None? && !r.buffersReleased
    ensures dirFound ==> r.settingsLines == Some(SettingsLines(st.settings, st.catalog))
    ensures dirFound && !outputIsMultiBlock ==> r.status == 0 && r.blocks.None? && !r.buffersReleased
    ensures dirFound && outputIsMultiBlock ==> r.status == 1 && r.buffersReleased && r.blocks.Some?
    ensures dirFound && outputIsMultiBlock ==>
      && BlockFrom(r.blocks.value.0, out.coordsDG, out.valuesDG, out.nodeidsDG, out.varnames, out.components, st.settings.mode2d)
      && BlockFrom(r.blocks.value.1, out.coordsFV, out.valuesFV, out.nodeidsFV, out.varnames, out.components, st.settings.mode2d)
  {
    var fileToLoad := "";
    if requestedTime.Some? {
      var k := FindClosestTimeStep(st.timesteps, requestedTime.value);
      fileToLoad := st.fileNames[k];
    }
    if !dirFound {
      return DataResult(0, fileToLoad, None, None, false);
    }
    var lines := SettingsLines(st.settings, st.catalog);
    if !outputIsMultiBlock {
      return DataResult(0, fileToLoad, Some(lines), None, false);
    }
    var dg := InsertData(out.coordsDG, out.valuesDG, out.nodeidsDG, out.varnames, out.components, st.settings.mode2d);
    var fv := InsertData(out.coordsFV, out.valuesFV, out.nodeidsFV, out.varnames, out.components, st.settings.mode2d);
    r := DataResult(1, fileToLoad, Some(lines), Some((dg, fv)), true);
  }

  // ---------------------------------------------------------------- GUI accessors

  /** Number of catalog positions: every listed name sits at a position below it. */
  function GetNumberOfVarArrays(st: ReaderState): (r: nat)
    ensures forall name :: Contains(st.catalog, name) ==> Find(st.catalog, name).value < r
  {
    |st.catalog|
  }

  /** Name at a catalog position; no name for a position out of range. */
  function GetVarArrayName(st: ReaderState, index: int): (r: Option<string>)
    ensures r.Some? <==> 0 <= index < GetNumberOfVarArrays(st)
    ensures r.Some? ==> r.value == st.catalog[index].name
  {
    if index >= GetNumberOfVarArrays(st) || index < 0 then None else Some(st.catalog[index].name)
  }

  /** 1 when `name` is listed and enabled, 0 otherwise. */
  function GetVarArrayStatus(st: ReaderState, name: string): (r: int)
    ensures r == 0 || r == 1
    ensures r == 1 <==> Contains(st.catalog, name) && IsEnabled(st.catalog, name)
  {
    if IsEnabled(st.catalog, name) then 1 else 0
  }

  /** Looking up the name found at a position gives that position's status. */
  lemma NameThenStatus(st: ReaderState, index: int)
    requires Valid(st)
    requires 0 <= index < GetNumberOfVarArrays(st)
    ensures GetVarArrayStatus(st, GetVarArrayName(st, index).value) == (if st.catalog[index].enabled then 1 else 0)
  {
    FindEachUnique(st.catalog);
  }

  /**
   Enables `name` for a non-zero `status`, disables it otherwise, appending
   it when it is not listed; no other name changes status.
   */
  function SetVarArrayStatus(st: ReaderState, name: string, status: int): (r: ReaderState)
    ensures GetVarArrayStatus(r, name) == (if status != 0 then 1 else 0)
    ensures forall other :: other != name ==> GetVarArrayStatus(r, other) == GetVarArrayStatus(st, other)
    ensures forall i :: 0 <= i < GetNumberOfVarArrays(st) ==> GetVarArrayName(r, i) == GetVarArrayName(st, i)
    ensures Contains(st.catalog, name) ==> GetNumberOfVarArrays(r) == GetNumberOfVarArrays(st)
    ensures !Contains(st.catalog, name) ==> r.catalog == st.catalog + [Entry(name, status != 0)]
    ensures r.fileNames == st.fileNames && r.timesteps == st.timesteps && r.settings == st.settings
    ensures Valid(st) ==> Valid(r)
  {
    var c := SetStatus(st.catalog, name, status != 0);
    SetStatusThenRead(st.catalog, name, status != 0, name);
    assert forall other :: other != name ==>
             (IsEnabled(c, other) == IsEnabled(st.catalog, other) && (Contains(c, other) <==> Contains(st.catalog, other))) by {
      forall other | other != name
        ensures IsEnabled(c, other) == IsEnabled(st.catalog, other)
        ensures Contains(c, other) <==> Contains(st.catalog, other)
      {
        SetStatusThenRead(st.catalog, name, status != 0, other);
      }
    }
    assert UniqueNames(st.catalog) ==> UniqueNames(c) by {
      if UniqueNames(st.catalog) {
        SetStatusUnique(st.catalog, name, status != 0);
      }
    }
    st.(catalog := c)
  }

  /** Every listed variable enabled, the list itself unchanged. */
  function EnableAllVarArrays(st: ReaderState): (r: ReaderState)
    ensures GetNumberOfVarArrays(r) == GetNumberOfVarArrays(st)
    ensures forall i :: 0 <= i < GetNumberOfVarArrays(st) ==>
      GetVarArrayName(r, i) == GetVarArrayName(st, i) && r.catalog[i].enabled
    ensures forall name :: Contains(st.catalog, name) ==> GetVarArrayStatus(r, name) == 1
    ensures r.fileNames == st.fileNames && r.timesteps == st.timesteps && r.settings == st.settings
    ensures Valid(st) ==> Valid(r)
  {
    SetAllStatus(st, true)
  }

  /** Every listed variable disabled, the list itself unchanged. */
  function DisableAllVarArrays(st: ReaderState): (r: ReaderState)
    ensures GetNumberOfVarArrays(r) == GetNumberOfVarArrays(st)
    ensures forall i :: 0 <= i < GetNumberOfVarArrays(st) ==>
      GetVarArrayName(r, i) == GetVarArrayName(st, i) && !r.catalog[i].enabled
    ensures forall name :: GetVarArrayStatus(r, name) == 0
    ensures r.fileNames == st.fileNames && r.timesteps == st.timesteps && r.settings == st.settings
    ensures Valid(st) ==> Valid(r)
  {
    SetAllStatus(st, false)
  }

  function SetAllStatus(st: ReaderState, enabled: bool): (r: ReaderState)
    ensures r.catalog == SetAll(st.catalog, enabled)
    ensures r.fileNames == st.fileNames && r.timesteps == st.timesteps && r.settings == st.settings
    ensures forall name :: Contains(st.catalog, name) <==> Contains(r.catalog, name)
    ensures forall name :: Contains(st.catalog, name) ==> IsEnabled(r.catalog, name) == enabled
    ensures forall name :: !Contains(st.catalog, name) ==> !IsEnabled(r.catalog, name)
  {
    var c := SetAll(st.catalog, enabled);
    assert forall name :: (Contains(st.catalog, name) <==> Contains(c, name))
                       && (Contains(st.catalog, name) ==> IsEnabled(c, name) == enabled) by {
      forall name
        ensures Contains(st.catalog, name) <==> Contains(c, name)
        ensures Contains(st.catalog, name) ==> IsEnabled(c, name) == enabled
      {
        SetAllThenRead(st.catalog, enabled, name);
      }
    }
    st.(catalog := c)
  }
}

=== FILE: wrappers.dfy ===
/** An optional value, shared by the other modules. */
module Wrappers {

  /** A value that may be absent: a missing file attribute, an index out of range. */
  datatype Option<+T> = None | Some(value: T) {

    /** The wrapped value, or `default` when absent. */
    function GetOr(default: T): (r: T)
      ensures Some? ==> r == value
      ensures None? ==> r == default
    {
      match this
      case Some(v) => v
      case None => default
    }
  }
}
